=== FILE: README.md ===
# googlebooks-rs: the `VolumeQuery` builder, in Dafny

This project models the query builder of the googlebooks-rs client for the
Google Books volumes API (`src/queries.rs`) and proves properties of it. The
builder covers:

- **The value.** A search string `q` and five optional request options:
  `maxResults`, `startIndex`, `langRestrict`, `projection` and `printType`.
- **Construction.** `new` takes a free search string. `isbn`, `title`,
  `author`, `publisher`, `subject`, `lccn` and `oclc` each seed `q` with
  `keyword:value`. The `and_*` methods append ` keyword:value`.
- **Options.** One setter per option.
- **`build_url`.** It turns the value into the URL
  `<base>/books/v1/volumes?<pairs>`.

The pairs are the `(name, value)` list that `build_url` collects. The URL
library serializes them as `application/x-www-form-urlencoded`, following
section 5.2 of the WHATWG URL Standard: UTF-8 bytes, where ASCII letters,
digits and `*-._` are kept, a space becomes `+`, and every other byte becomes
`%XX` in upper-case hex.

Layout, one module per file:

- `wrappers.dfy` (`Wrappers`): `Option`.
- `utf8.dfy` (`Utf8`): the UTF-8 encoding of RFC 3629 and a strict decoder.
- `decimal.dfy` (`Decimal`): `i32` and its `Display` rendering, with a parser.
- `form_urlencoded.dfy` (`FormUrlEncoded`): the serializer, plus a percent
  decoder and pair parser as its inverse.
- `queries.dfy` (`Queries`): the code itself, namely the enums and their
  renderings, the record, every constructor, `and_*` method and setter, the
  pair list `Params`, and `BuildUrl`.
- `builder_laws.dfy` (`BuilderLaws`): chains of `and_*` calls and of setters.
- `url_laws.dfy` (`UrlLaws`): which values go under which name, and in what
  order.
- `url_read.dfy` (`UrlRead`): reading a URL back into a query. This gives the
  round trip and injectivity of `BuildUrl`.
- `intended.dfy` (`Intended`): the two slips in `build_url`, and the
  corrected pair list with its own round trip.
- `examples.dfy` (`QueryExamples`): the crate's unit tests.

`build_url` takes `&self` and is modelled as a pure function. So it leaves
the query unchanged, and two calls give the same URL.

The model follows the code as written:

- `new` accepts every string, the empty one included.
- The print type goes out under the name `projection`.
- The start index goes out twice.

The last two are logged under Findings.

## Model

| member | source | states |
|---|---|---|
| Queries.RenderProjection | src/queries.rs:28-35 | `ParseProjection` reads the rendering back as the same projection: `full`/`lite` are distinct. `ParsePrintType` rejects it, so no projection name is a print-type name. |
| Queries.RenderPrintType | src/queries.rs:47-55 | `ParsePrintType` reads the rendering back as the same print type: `books`/`all`/`magazines` are distinct. `ParseProjection` rejects it. |
| Queries.Keyword | src/queries.rs:117-149 | The keyword of each constructor names its field back (`FieldOfKeyword`) and contains no colon. |
| Queries.New | src/queries.rs:105-114 | `q` is the given string, whatever it is (the empty string too), and all five options are absent. |
| Queries.ByField | src/queries.rs:117-149 | A constructor's `q` is keyword, `:`, value, and all five options are absent. |
| Queries.ColonAfterKeyword | src/queries.rs:117-149 | The seed `keyword:value` splits at its first colon back into the field and the exact value, even when the value itself contains colons. |
| Queries.IsbnQuery | src/queries.rs:116-119 | `isbn` is the `isbn:` instance of the constructor rule. |
| Queries.TitleQuery | src/queries.rs:121-124 | `title` is the `intitle:` instance of the constructor rule. |
| Queries.AuthorQuery | src/queries.rs:126-129 | `author` is the `inauthor:` instance of the constructor rule. |
| Queries.PublisherQuery | src/queries.rs:131-134 | `publisher` is the `inpublisher:` instance of the constructor rule. |
| Queries.SubjectQuery | src/queries.rs:136-139 | `subject` is the `subject:` instance of the constructor rule. |
| Queries.LccnQuery | src/queries.rs:141-144 | `lccn` is the `lccn:` instance of the constructor rule. |
| Queries.OclcQuery | src/queries.rs:146-149 | `oclc` is the `oclc:` instance of the constructor rule. |
| Queries.AndField | src/queries.rs:151-185 | The old `q` is a strict prefix of the new one. It is followed by one space and then exactly `keyword:value`. No option changes. |
| Queries.AndIsbn | src/queries.rs:151-154 | `and_isbn` is the `isbn` instance of the append rule. |
| Queries.AndTitle | src/queries.rs:156-159 | `and_title` is the `intitle` instance of the append rule. |
| Queries.AndAuthor | src/queries.rs:161-164 | `and_author` is the `inauthor` instance of the append rule. |
| Queries.AndPublisher | src/queries.rs:166-170 | `and_publisher` is the `inpublisher` instance of the append rule. |
| Queries.AndSubject | src/queries.rs:172-175 | `and_subject` is the `subject` instance of the append rule. |
| Queries.AndLccn | src/queries.rs:177-180 | `and_lccn` is the `lccn` instance of the append rule. |
| Queries.AndOclc | src/queries.rs:182-185 | `and_oclc` is the `oclc` instance of the append rule. |
| Queries.WithMaxResults | src/queries.rs:187-190 | `maxResults` becomes `Some(n)` for every `i32` `n`, negative ones included. Every other field is unchanged. |
| Queries.WithStartIndex | src/queries.rs:192-195 | `startIndex` becomes `Some(n)` for every `i32`. Every other field is unchanged. |
| Queries.WithLangRestrict | src/queries.rs:197-200 | `langRestrict` becomes the given string, unvalidated. Every other field is unchanged. |
| Queries.WithProjection | src/queries.rs:202-205 | `projection` becomes `Some(p)`. Every other field is unchanged. |
| Queries.WithPrintType | src/queries.rs:207-210 | `printType` becomes `Some(t)`. Every other field is unchanged. |
| Queries.ParamText | src/queries.rs:229-247 | Each parameter name reads back (`ParseParam`) as the same parameter, so the wire names are pairwise distinct. |
| Queries.OptionalPair | src/queries.rs:231-248 | An option contributes one pair when set and none when absent. |
| Queries.Params | src/queries.rs:227-248 | The first pair is always `("q", q)`. The number of pairs is 1 + [max] + 2·[start] + [lang] + [projection] + [print type]. |
| Queries.BuildUrl | src/queries.rs:225-250 | The URL starts with the base, then `/books/v1/volumes`, then `?`, and has a non-empty query after it. |
| Decimal.Digits | src/queries.rs:232 | The decimal digits of a natural number: non-empty, all digits, with a leading `0` only for zero. |
| Decimal.Show | src/queries.rs:232-238 | The `i32` rendering is non-empty and starts with `-` exactly for negative numbers, followed by digits only. The digits start with `0` only for zero, so there are no leading zeros. |
| Decimal.ParseShow | src/queries.rs:232-238 | Parsing the rendering gives the number back. |
| Decimal.ParseInt32Show | src/queries.rs:232-238 | Parsing the rendering as an `i32`, with its range check, gives the number back. |
| Decimal.ShowInjective | src/queries.rs:232-238 | Distinct numbers render differently. |
| Utf8.Encode | src/queries.rs:250 | A string's UTF-8 bytes: between 1 and 4 per character. `DecodeEncode` is its inverse and `EncodeAppend` its homomorphism law. |
| Utf8.EncodeChar | src/queries.rs:250 | Each character takes 1 to 4 bytes. It takes one byte exactly when it is ASCII, and that byte is its code. Every byte after the first is a continuation byte. |
| Utf8.DecodeEncode | src/queries.rs:250 | Decoding the UTF-8 encoding of any string gives the string back. |
| Utf8.EncodeAppend | src/queries.rs:250 | Encoding is a homomorphism from concatenation to concatenation. |
| FormUrlEncoded.EncodeByte | src/queries.rs:250 | A kept byte becomes itself and a space becomes `+`; every other byte becomes `%` and two upper-case hex digits whose value is the byte. Only letters, digits, `*-._`, `+` and `%` occur. |
| FormUrlEncoded.ByteSerialize | src/queries.rs:250 | The output is between 1 and 3 times as long as the input, and uses only output characters. |
| FormUrlEncoded.Serialize | src/queries.rs:250 | A serialized name or value never contains `&` or `=`. |
| FormUrlEncoded.SerializePair | src/queries.rs:250 | `append_pair`'s `name=value`: contains no `&`, and its first `=` comes right after the serialized name. |
| FormUrlEncoded.SerializePairs | src/queries.rs:250 | The `&`-separated pair list: empty exactly for no pairs, and otherwise containing `=`. `SplitSerializePairs` and `ParseSerializePairs` are its inverses. |
| FormUrlEncoded.SerializeKept | src/queries.rs:250 | A string made only of kept characters is sent unchanged. |
| FormUrlEncoded.SerializeAppend | src/queries.rs:250 | Serializing a concatenation serializes the parts one after the other. |
| FormUrlEncoded.DecodeSerialize | src/queries.rs:250 | Percent-decoding and UTF-8-decoding a serialized string gives it back. |
| FormUrlEncoded.SplitSerializePairs | src/queries.rs:250 | Splitting the serialized list at `&` gives exactly the serialized pairs. |
| FormUrlEncoded.ParseSerializePairs | src/queries.rs:250 | Parsing the serialized list gives back the pair list, names and values exactly. |
| FormUrlEncoded.SerializePairsCarries | src/queries.rs:250 | Every pair appears, serialized as `name=value`, in the serialized list. |
| BuilderLaws.AndAllAppends | src/queries.rs:151-185 | A chain of `and_*` calls appends its predicates in call order, each after a space, and leaves the options unchanged. |
| BuilderLaws.Latest | src/queries.rs:187-210 | Picks a setter call of the given kind with no call of that kind after it, so the last one. It is absent exactly when no call of that kind was made. |
| BuilderLaws.ApplyAllLatest | src/queries.rs:187-210 | After any sequence of setter calls, each option holds the value of the last call on it, or its old value if there was none. `q` is untouched: the last call wins. |
| BuilderLaws.SetterOrderIrrelevant | src/queries.rs:187-210 | Calls to distinct setters commute: any rearrangement gives the same query. |
| BuilderLaws.BuildUrlSetterOrderIrrelevant | src/queries.rs:225-250 | The pair list and the URL do not depend on the order in which distinct setters were called. |
| BuilderLaws.AndCommutesWithSetter | src/queries.rs:151-210 | An `and_*` call and a setter commute. |
| BuilderLaws.ChainedTitleAuthor | src/queries.rs:289-297 | `title(t).and_author(a).max_results(n)` has `q` = `intitle:t inauthor:a`: it starts with the title predicate and ends with the author predicate. `maxResults` is `Some(n)` and every other option is absent. |
| UrlLaws.ParamsValues | src/queries.rs:229-248 | What `build_url` sends under each name: `q` once, with the search string; `maxResults` and `langRestrict` once each when set and never otherwise; `startIndex` twice when set; the projection's name then the print type's name under `projection`; nothing under `printType`. |
| UrlLaws.ParamsKeyOrder | src/queries.rs:227-248 | The names always follow the fixed order q, maxResults, startIndex, startIndex, langRestrict, projection, projection, with absent options left out. |
| UrlLaws.NegativeSentAsIs | src/queries.rs:187-190 | With no range check, a negative count is sent with its minus sign and reads back as the same number. |
| UrlRead.ReadInt32 | src/queries.rs:231-238 | An integer option reads back absent when nothing was sent. Otherwise it succeeds exactly when the first value sent parses as an `i32`, and then gives that number. |
| UrlRead.FirstProjection | src/queries.rs:243-248 | A value that names the result, with no value before it naming any projection. It is absent exactly when no value does. |
| UrlRead.FirstPrintType | src/queries.rs:243-248 | A value that names the result, with no value before it naming any print type. It is absent exactly when no value does. |
| UrlRead.NamedSpelled | src/queries.rs:229-247 | The spelled-out parameter names read back as the same parameters. |
| UrlRead.RecoverParams | src/queries.rs:227-248 | The pair list determines the query: every field can be recovered from it. |
| UrlRead.ParseBuildUrl | src/queries.rs:227-250 | The URL's query part parses back to exactly the collected pairs, in the order they were pushed, so `q` is the first parameter and the options follow in their fixed order. |
| UrlRead.ReadBuildUrl | src/queries.rs:225-250 | Round trip: reading the URL `build_url` writes gives back the same query. |
| UrlRead.BuildUrlInjective | src/queries.rs:225-250 | Two queries with the same URL on the same base are equal. |
| UrlRead.BuildUrlCarries | src/queries.rs:225-250 | Every collected pair appears in the URL as form-urlencoded `name=value`. |
| UrlRead.BuildUrlCarriesSearch | src/queries.rs:229 | The search string appears right after `q=`, form-urlencoded. |
| UrlRead.BuildUrlCarriesVerbatim | src/queries.rs:231-248 | A pair whose name and value need no escaping appears verbatim. |
| QueryExamples.ConstructorTests | src/queries.rs:258-274 | The seed tests of `isbn`, `title` and `subject`: for example, `isbn("9782348054693")` has `q` = `isbn:9782348054693`. |
| QueryExamples.MoreConstructorTests | src/queries.rs:276-317 | The seed tests of `publisher`, `author` and `lccn`: for example, `lccn("Yolo")` has `q` = `lccn:Yolo`. |
| QueryExamples.DisplayTests | src/queries.rs:319-330 | The rendering tests of both enums. |
| QueryExamples.SerializePredicate | src/queries.rs:250 | Only the colon of an unescaped predicate is escaped, as `%3A`. |
| QueryExamples.BuildUrlTest | src/queries.rs:299-311 | The `build_url` test: the URL contains `q=isbn%3A123456789`, `maxResults=5` and `langRestrict=fr`. |
| Intended.StartIndexSentTwice | src/queries.rs:234-239 | As written, a set start index is sent twice under `startIndex`. |
| Intended.PrintTypeSentAsProjection | src/queries.rs:243-248 | As written, a set print type is sent under `projection`, after any projection, and nothing is ever sent under `printType`. |
| Intended.LiteBooksExample | src/queries.rs:243-248 | With projection `Lite` and print type `Books`, `projection` carries `lite` and `books`, and `printType` carries nothing. |
| Intended.IntendedParams | src/queries.rs:227-248 | Corrected: `q` first, and one pair per set option, so the length is 1 + the number of set options. |
| Intended.IntendedValues | src/queries.rs:229-248 | Corrected: every name carries exactly its own field's rendering, once when set and not at all otherwise. No name carries two values. |
| Intended.IntendedBuildUrl | src/queries.rs:225-250 | Corrected URL: the same base, path and `?` as `build_url`. |
| Intended.ReadIntendedBuildUrl | src/queries.rs:225-250 | Round trip of the corrected URL, with the print type read from `printType`. |
| Intended.ParseIntendedBuildUrl | src/queries.rs:227-250 | The corrected URL's query part parses back to exactly the corrected pairs, in order, with `q` first. |

## Left out

- HTTP, JSON decoding and the client in `src/lib.rs`, the error wrappers in
  `src/errors.rs` and the response records in `src/models.rs`: these are I/O
  and declarations, not builder logic.
- `examples/basic.rs`: demonstration I/O.
- URL parsing inside `Url::parse_with_params` and its `unwrap`: the base is a
  trusted string. The model concatenates base, path, `?` and the serialized
  pairs. It does not normalise the base or reproduce the panic on an invalid
  base.
- Queries.BuildUrl: states the URL's shape; what it carries, and in which
  order, is proved by `UrlRead.ParseBuildUrl` (the query part parses back to
  exactly `Params`, in order), with `UrlLaws.ParamsKeyOrder` and
  `UrlLaws.ParamsValues` on that list and `UrlRead.ReadBuildUrl` for the round
  trip, rather than in its own contract.
- API keys, rate-limit handling and an empty-seed error: the code has none
  of them.

## Findings

| source | as written | input that shows it | evidently intended | confidence | as-written member | corrected member |
|---|---|---|---|---|---|---|
| src/queries.rs:234-239 | the `start_index` block is repeated, so `startIndex` is pushed twice | `VolumeQuery::new("x").start_index(10)`: pairs `q=x&startIndex=10&startIndex=10` | one `startIndex` pair | high (not executed) | Intended.StartIndexSentTwice | Intended.IntendedValues |
| src/queries.rs:246-248 | the print type is pushed under the name `projection` | `projection(Lite).print_type(Books)`: `projection=lite&projection=books`, no `printType` | `printType=books`, read back from its own name | high (not executed) | Intended.LiteBooksExample | Intended.ReadIntendedBuildUrl |

=== FILE: builder_laws.dfy ===
/** Laws of the builder steps: chains of `and_*` calls and sequences of option
    setters. */
module BuilderLaws {
  import opened Wrappers
  import opened Decimal
  import opened Queries

  /** One `and_*` call: the field and the value it appends. */
  datatype Term = Term(field: Field, value: string)

  /** Applies `and_*` calls left to right, as a method chain does. */
  function AndAll(vq: VolumeQuery, ts: seq<Term>): VolumeQuery
    decreases |ts|
  {
    if ts == [] then vq else AndAll(AndField(vq, ts[0].field, ts[0].value), ts[1..])
  }

  /** The text a list of predicates contributes: each one preceded by a space. */
  function Spaced(ts: seq<Term>): string
  {
    if ts == [] then "" else " " + Predicate(ts[0].field, ts[0].value) + Spaced(ts[1..])
  }

  /** A chain of `and_*` calls appends its predicates in call order after the
      original search string and leaves every option as it was. */
  lemma {:induction false} AndAllAppends(vq: VolumeQuery, ts: seq<Term>)
    ensures AndAll(vq, ts).q == vq.q + Spaced(ts)
    ensures SameOptions(AndAll(vq, ts), vq)
    decreases |ts|
  {
    if ts != [] {
      var next := AndField(vq, ts[0].field, ts[0].value);
      AndAllAppends(next, ts[1..]);
      assert next.q == vq.q + " " + Predicate(ts[0].field, ts[0].value);
    }
  }

  /** One option setter call. */
  datatype Setting =
    | SetMaxResults(n: Int32)
    | SetStartIndex(n: Int32)
    | SetLangRestrict(lang: string)
    | SetProjection(p: Projection)
    | SetPrintType(t: PrintType)

  /** Which of the five options a setter writes, numbered in `build_url` order. */
  function KindOf(s: Setting): (k: nat)
    ensures k < 5
  {
    match s
    case SetMaxResults(_) => 0
    case SetStartIndex(_) => 1
    case SetLangRestrict(_) => 2
    case SetProjection(_) => 3
    case SetPrintType(_) => 4
  }

  function Apply(vq: VolumeQuery, s: Setting): VolumeQuery {
    match s
    case SetMaxResults(n) => WithMaxResults(vq, n)
    case SetStartIndex(n) => WithStartIndex(vq, n)
    case SetLangRestrict(l) => WithLangRestrict(vq, l)
    case SetProjection(p) => WithProjection(vq, p)
    case SetPrintType(t) => WithPrintType(vq, t)
  }

  /** Applies setter calls left to right, as a method chain does. */
  function ApplyAll(vq: VolumeQuery, ss: seq<Setting>): VolumeQuery
    decreases |ss|
  {
    if ss == [] then vq else ApplyAll(Apply(vq, ss[0]), ss[1..])
  }

  /** The last setter of kind `k` in `ss`, if there is one. */
  function Latest(ss: seq<Setting>, k: nat): (r: Option<Setting>)
    ensures r.Some? ==> r.value in ss && KindOf(r.value) == k
    ensures r.Some? ==> exists i :: 0 <= i < |ss| && ss[i] == r.value
                          && forall j :: i < j < |ss| ==> KindOf(ss[j]) != k
    ensures r.None? <==> forall s :: s in ss ==> KindOf(s) != k
  {
    if ss == [] then None
    else if KindOf(ss[|ss| - 1]) == k then Some(ss[|ss| - 1])
    else
      var r := Latest(ss[..|ss| - 1], k);
      assert ss == ss[..|ss| - 1] + [ss[|ss| - 1]];
      r
  }

  /** The reference outcome of a list of setters: each option takes the value
      of the last setter of its kind, or keeps its value when there is none. */
  function ApplyLatest(vq: VolumeQuery, ss: seq<Setting>): VolumeQuery {
    VolumeQuery(
      vq.q,
      match Latest(ss, 0) case Some(SetMaxResults(n)) => Some(n) case _ => vq.maxResults,
      match Latest(ss, 1) case Some(SetStartIndex(n)) => Some(n) case _ => vq.startIndex,
      match Latest(ss, 2) case Some(SetLangRestrict(l)) => Some(l) case _ => vq.langRestrict,
      match Latest(ss, 3) case Some(SetProjection(p)) => Some(p) case _ => vq.projection,
      match Latest(ss, 4) case Some(SetPrintType(t)) => Some(t) case _ => vq.printType)
  }

  lemma {:induction false} ApplyAllSnoc(vq: VolumeQuery, ss: seq<Setting>, s: Setting)
    ensures ApplyAll(vq, ss + [s]) == Apply(ApplyAll(vq, ss), s)
    decreases |ss|
  {
    if ss != [] {
      assert (ss + [s])[1..] == ss[1..] + [s];
      ApplyAllSnoc(Apply(vq, ss[0]), ss[1..], s);
    } else {
      assert (ss + [s])[1..] == [];
    }
  }

  /** Appending a setter to the list changes only the latest setter of its kind. */
  lemma LatestSnoc(ss: seq<Setting>, s: Setting, k: nat)
    ensures Latest(ss + [s], k) == if KindOf(s) == k then Some(s) else Latest(ss, k)
  {
    assert (ss + [s])[..|ss|] == ss;
  }

  lemma ApplyLatestSnoc(vq: VolumeQuery, ss: seq<Setting>, s: Setting)
    ensures ApplyLatest(vq, ss + [s]) == Apply(ApplyLatest(vq, ss), s)
  {
    var a, b := ApplyLatest(vq, ss + [s]), Apply(ApplyLatest(vq, ss), s);
    assert a.maxResults == b.maxResults by { LatestSnoc(ss, s, 0); }
    assert a.startIndex == b.startIndex by { LatestSnoc(ss, s, 1); }
    assert a.langRestrict == b.langRestrict by { LatestSnoc(ss, s, 2); }
    assert a.projection == b.projection by { LatestSnoc(ss, s, 3); }
    assert a.printType == b.printType by { LatestSnoc(ss, s, 4); }
  }

  /** Later calls overwrite earlier ones: a chain of setters leaves each option
      with the value of the last setter of its kind (or as it was), and the
      search string untouched. */
  lemma {:induction false} ApplyAllLatest(vq: VolumeQuery, ss: seq<Setting>)
    ensures ApplyAll(vq, ss) == ApplyLatest(vq, ss)
    ensures ApplyAll(vq, ss).q == vq.q
    decreases |ss|
  {
    if ss != [] {
      var init := ss[..|ss| - 1];
      var s := ss[|ss| - 1];
      assert ss == init + [s];
      ApplyAllSnoc(vq, init, s);
      ApplyAllLatest(vq, init);
      ApplyLatestSnoc(vq, init, s);
    }
  }

  /** At most one setter of each kind. */
  predicate DistinctKinds(ss: seq<Setting>) {
    forall i, j :: 0 <= i < j < |ss| ==> KindOf(ss[i]) != KindOf(ss[j])
  }

  lemma LatestOfDistinct(ss: seq<Setting>, ss': seq<Setting>, k: nat)
    requires multiset(ss) == multiset(ss')
    requires DistinctKinds(ss)
    ensures Latest(ss, k) == Latest(ss', k)
  {
    var a := Latest(ss, k);
    var b := Latest(ss', k);
    forall s ensures s in ss <==> s in ss' {
      assert s in ss <==> s in multiset(ss);
      assert s in ss' <==> s in multiset(ss');
    }
    if a.Some? && b.Some? {
      var i :| 0 <= i < |ss| && ss[i] == a.value;
      var j :| 0 <= j < |ss| && ss[j] == b.value;
      assert i == j;
    }
  }

  /** The order of setter calls does not matter when each option is set at most
      once: any rearrangement builds the same query. */
  lemma SetterOrderIrrelevant(vq: VolumeQuery, ss: seq<Setting>, ss': seq<Setting>)
    requires multiset(ss) == multiset(ss')
    requires DistinctKinds(ss)
    ensures ApplyAll(vq, ss) == ApplyAll(vq, ss')
  {
    ApplyAllLatest(vq, ss);
    ApplyAllLatest(vq, ss');
    LatestOfDistinct(ss, ss', 0);
    LatestOfDistinct(ss, ss', 1);
    LatestOfDistinct(ss, ss', 2);
    LatestOfDistinct(ss, ss', 3);
    LatestOfDistinct(ss, ss', 4);
  }

  /** Hence the URL, and the pair order in it, does not depend on the order
      in which distinct setters were called. */
  lemma BuildUrlSetterOrderIrrelevant(vq: VolumeQuery, ss: seq<Setting>, ss': seq<Setting>, base: string)
    requires multiset(ss) == multiset(ss')
    requires DistinctKinds(ss)
    ensures Params(ApplyAll(vq, ss)) == Params(ApplyAll(vq, ss'))
    ensures BuildUrl(ApplyAll(vq, ss), base) == BuildUrl(ApplyAll(vq, ss'), base)
  {
    SetterOrderIrrelevant(vq, ss, ss');
  }

  /** Predicates and options do not interfere: an `and_*` call and a setter
      commute. */
  lemma AndCommutesWithSetter(vq: VolumeQuery, f: Field, v: string, s: Setting)
    ensures AndField(Apply(vq, s), f, v) == Apply(AndField(vq, f, v), s)
  {
  }

  /** The chain of the builder test, for any title, author and count: both
      predicates are in the search text, title first, and the count is set. */
  lemma ChainedTitleAuthor(title: string, author: string, n: Int32)
    ensures var vq := WithMaxResults(AndAuthor(TitleQuery(title), author), n);
      && vq.q == Predicate(Title, title) + " " + Predicate(Author, author)
      && vq.q[..|Predicate(Title, title)|] == Predicate(Title, title)
      && vq.q[|vq.q| - |Predicate(Author, author)|..] == Predicate(Author, author)
      && vq.maxResults == Some(n)
      && vq.startIndex == None && vq.langRestrict == None
      && vq.projection == None && vq.printType == None
  {
    var t := TitleQuery(title);
    var a := AndAuthor(t, author);
    assert a.q == t.q + " " + Predicate(Author, author);
  }
}

=== FILE: decimal.dfy ===
/** Decimal rendering of Rust's `i32`, as `to_string()` produces it: an optional
    minus sign followed by the digits of the magnitude, without leading zeros. */
module Decimal {
  import opened Wrappers

  /** Rust's `i32`. */
  type Int32 = x: int | -0x8000_0000 <= x < 0x8000_0000

  predicate IsDigit(c: char) {
    '0' <= c <= '9'
  }

  predicate AllDigits(s: string) {
    forall i :: 0 <= i < |s| ==> IsDigit(s[i])
  }

  function DigitChar(d: nat): (c: char)
    requires d < 10
    ensures IsDigit(c) && c as int - '0' as int == d
  {
    ('0' as int + d) as char
  }

  function DigitValue(c: char): (d: nat)
    requires IsDigit(c)
    ensures d < 10
  {
    c as int - '0' as int
  }

  /** The digits of `n`, most significant first: never empty, and a leading
      zero only for zero itself. */
  function Digits(n: nat): (s: string)
    ensures |s| >= 1 && AllDigits(s)
    ensures s[0] == '0' <==> n == 0
  {
    if n < 10 then [DigitChar(n)] else Digits(n / 10) + [DigitChar(n % 10)]
  }

  /** `i32::to_string`: a minus sign exactly for negative numbers, then digits. */
  function Show(n: int): (s: string)
    ensures |s| >= 1
    ensures s[0] == '-' <==> n < 0
    ensures AllDigits(s[1..])
    ensures var d := if n < 0 then s[1..] else s; |d| >= 1 && (d[0] == '0' <==> n == 0)
  {
    if n < 0 then "-" + Digits(-n) else Digits(n)
  }

  /** The number a non-empty digit string denotes. */
  function DigitsValue(s: string): nat
    requires AllDigits(s)
  {
    if s == [] then 0 else DigitsValue(s[..|s| - 1]) * 10 + DigitValue(s[|s| - 1])
  }

  /** Reads back an optionally signed decimal numeral; None for anything else
      (the empty string, a bare sign, a non-digit). */
  function Parse(s: string): Option<int>
  {
    if |s| > 0 && s[0] == '-' then
      if |s| > 1 && AllDigits(s[1..]) then Some(0 - DigitsValue(s[1..]) as int) else None
    else if |s| > 0 && AllDigits(s) then Some(DigitsValue(s) as int)
    else None
  }

  /** Reads back a numeral that denotes an `i32`; None also when it is out of range. */
  function ParseInt32(s: string): (r: Option<Int32>)
    ensures r.Some? ==> Parse(s) == Some(r.value as int)
  {
    match Parse(s)
    case Some(n) => if -0x8000_0000 <= n < 0x8000_0000 then Some(n as Int32) else None
    case None => None
  }

  lemma {:induction false} DigitsValueDigits(n: nat)
    ensures DigitsValue(Digits(n)) == n
  {
    var s := Digits(n);
    if n >= 10 {
      DigitsValueDigits(n / 10);
      assert s[..|s| - 1] == Digits(n / 10);
    }
  }

  /** Rendering is lossless: the numeral `to_string` prints reads back as the same number. */
  lemma ParseShow(n: int)
    ensures Parse(Show(n)) == Some(n)
  {
    if n < 0 {
      DigitsValueDigits(-n);
      assert Show(n)[1..] == Digits(-n);
    } else {
      DigitsValueDigits(n);
    }
  }

  /** The same for `i32` values: every rendering of an `i32` reads back in range. */
  lemma ParseInt32Show(n: Int32)
    ensures ParseInt32(Show(n)) == Some(n)
  {
    ParseShow(n);
  }

  /** Distinct numbers render to distinct strings. */
  lemma ShowInjective(m: int, n: int)
    ensures Show(m) == Show(n) ==> m == n
  {
    ParseShow(m);
    ParseShow(n);
  }
}

=== FILE: examples.dfy ===
/** The crate's own unit tests, stated over the model. */
module QueryExamples {
  import opened Wrappers
  import opened Decimal
  import opened Queries
  import opened FormUrlEncoded
  import UrlRead
  import Utf8

  /** The constructor tests: each seed is `keyword:value`. */
  lemma ConstructorTests()
    ensures IsbnQuery("9782348054693").q == "isbn:9782348054693"
    ensures TitleQuery("Test").q == "intitle:Test"
    ensures SubjectQuery("Yolo").q == "subject:Yolo"
  {
  }

  /** The remaining constructor tests. */
  lemma MoreConstructorTests()
    ensures PublisherQuery("poche").q == "inpublisher:poche"
    ensures AuthorQuery("emma goldmann").q == "inauthor:emma goldmann"
    ensures LccnQuery("Yolo").q == "lccn:Yolo"
  {
  }

  /** The `Display` tests of both enums. */
  lemma DisplayTests()
    ensures RenderProjection(Full) == "full" && RenderProjection(Lite) == "lite"
    ensures RenderPrintType(Books) == "books" && RenderPrintType(All) == "all"
    ensures RenderPrintType(Magazines) == "magazines"
  {
  }

  /** The colon of a predicate is percent-encoded. */
  lemma ColonSerialized()
    ensures Serialize(":") == "%3A"
  {
    ColonBytes(":");
  }

  lemma ColonBytes(colon: string)
    requires colon == ":"
    ensures Serialize(colon) == "%3A"
  {
    assert Utf8.Encode(colon) == [0x3A];
    assert EncodeByte(0x3A) == ['%', HexUpper[3], HexUpper[10]];
  }

  /** A predicate whose keyword and value need no escaping is sent with only
      its colon escaped. */
  lemma SerializePredicate(keyword: string, value: string)
    requires AllKept(keyword) && AllKept(value)
    ensures Serialize(keyword + ":" + value) == keyword + "%3A" + value
  {
    SerializeAppend(keyword, ":");
    SerializeAppend(keyword + ":", value);
    ColonSerialized();
    SerializeKept(keyword);
    SerializeKept(value);
  }

  /** The query of `test_build_url`: an ISBN search, five results, in French. */
  function TestQuery(isbn: string): VolumeQuery {
    WithLangRestrict(WithMaxResults(IsbnQuery(isbn), 5), "fr")
  }

  lemma TestQueryParams(isbn: string)
    ensures Params(TestQuery(isbn)) == [(QParam, "isbn" + ":" + isbn), (MaxResultsParam, "5"), (LangRestrictParam, "fr")]
  {
    assert Show(5) == "5";
  }

  /** A query holding one unescaped predicate sends it as `q=keyword%3Avalue`. */
  lemma CarriesPredicate(vq: VolumeQuery, base: string, keyword: string, value: string)
    requires vq.q == keyword + ":" + value
    requires AllKept(keyword) && AllKept(value)
    ensures Occurs("q=" + (keyword + "%3A" + value), BuildUrl(vq, base))
  {
    UrlRead.BuildUrlCarriesSearch(vq, base);
    SerializePredicate(keyword, value);
  }

  lemma TestQuerySearch(isbn: string)
    requires isbn == "123456789"
    ensures TestQuery(isbn).q == "isbn" + ":" + isbn
    ensures AllKept("isbn") && AllKept(isbn)
    ensures "q=" + ("isbn" + "%3A" + isbn) == "q=isbn%3A123456789"
  {
  }

  lemma TestQueryCarriesQ(isbn: string, base: string)
    requires isbn == "123456789"
    ensures Occurs("q=isbn%3A123456789", BuildUrl(TestQuery(isbn), base))
  {
    TestQuerySearch(isbn);
    CarriesPredicate(TestQuery(isbn), base, "isbn", isbn);
  }

  // The helpers below take their literals as pinned parameters, which keeps
  // the verifier from unfolding the serializer on them.

  lemma TestQueryMaxResults(isbn: string, name: string, value: string)
    requires name == "maxResults" && value == "5"
    ensures 1 < |Params(TestQuery(isbn))| && Params(TestQuery(isbn))[1] == (MaxResultsParam, value)
    ensures ParamText(MaxResultsParam) == name && AllKept(name) && AllKept(value)
    ensures name + "=" + value == "maxResults=5"
  {
    TestQueryParams(isbn);
  }

  lemma TestQueryLangRestrict(isbn: string, name: string, value: string)
    requires name == "langRestrict" && value == "fr"
    ensures 2 < |Params(TestQuery(isbn))| && Params(TestQuery(isbn))[2] == (LangRestrictParam, value)
    ensures ParamText(LangRestrictParam) == name && AllKept(name) && AllKept(value)
    ensures name + "=" + value == "langRestrict=fr"
  {
    TestQueryParams(isbn);
  }

  lemma TestQueryCarriesMaxResults(isbn: string, base: string, name: string, value: string)
    requires name == "maxResults" && value == "5"
    ensures Occurs("maxResults=5", BuildUrl(TestQuery(isbn), base))
  {
    TestQueryMaxResults(isbn, name, value);
    UrlRead.BuildUrlCarriesVerbatim(TestQuery(isbn), base, 1, MaxResultsParam, name, value);
  }

  lemma TestQueryCarriesLangRestrict(isbn: string, base: string, name: string, value: string)
    requires name == "langRestrict" && value == "fr"
    ensures Occurs("langRestrict=fr", BuildUrl(TestQuery(isbn), base))
  {
    TestQueryLangRestrict(isbn, name, value);
    UrlRead.BuildUrlCarriesVerbatim(TestQuery(isbn), base, 2, LangRestrictParam, name, value);
  }

  /** `test_build_url`: an ISBN query with five results in French carries
      `q=isbn%3A123456789`, `maxResults=5` and `langRestrict=fr`. */
  lemma BuildUrlTest(base: string)
    ensures var url := BuildUrl(WithLangRestrict(WithMaxResults(IsbnQuery("123456789"), 5), "fr"), base);
      && Occurs("q=isbn%3A123456789", url)
      && Occurs("maxResults=5", url)
      && Occurs("langRestrict=fr", url)
  {
    TestQueryCarriesQ("123456789", base);
    TestQueryCarriesMaxResults("123456789", base, "maxResults", "5");
    TestQueryCarriesLangRestrict("123456789", base, "langRestrict", "fr");
  }
}

=== FILE: form_urlencoded.dfy ===
/** The `application/x-www-form-urlencoded` serializer of the WHATWG URL Standard
    (section 5.2), which the URL library applies to every query pair, and a
    parser in the manner of section 5.1 as its inverse. */
module FormUrlEncoded {
  import opened Wrappers
  import Utf8

  /** Bytes the serializer copies unchanged: ASCII letters and digits and `*`, `-`, `.`, `_`. */
  predicate IsKept(b: Utf8.byte) {
    || b == 0x2A || b == 0x2D || b == 0x2E || b == 0x5F
    || (0x30 <= b <= 0x39) || (0x41 <= b <= 0x5A) || (0x61 <= b <= 0x7A)
  }

  /** The characters a serialized string is made of: the kept ones, `+` and `%`.
      In particular `&` and `=`, which separate pairs and names from values, never occur. */
  predicate IsOutputChar(c: char) {
    (c as int < 0x100 && IsKept(c as int)) || c == '+' || c == '%'
  }

  const HexUpper: string := "0123456789ABCDEF"

  /** Serializes one byte: kept bytes as themselves, 0x20 as `+`, every other byte
      as `%` and two upper-case hexadecimal digits. */
  function EncodeByte(b: Utf8.byte): (s: string)
    ensures |s| == 1 || |s| == 3
    ensures forall i :: 0 <= i < |s| ==> IsOutputChar(s[i])
    ensures |s| == 1 <==> IsKept(b) || b == 0x20
    ensures |s| == 1 ==> s[0] == if b == 0x20 then '+' else b as char
    ensures |s| == 3 ==> s[0] == '%' && s[1] in HexUpper && s[2] in HexUpper
    ensures |s| == 3 ==> HexValue(s[1]).Some? && HexValue(s[2]).Some?
                         && HexValue(s[1]).value * 16 + HexValue(s[2]).value == b
  {
    if IsKept(b) then [b as char]
    else if b == 0x20 then "+"
    else
      HexValueUpper(b / 16);
      HexValueUpper(b % 16);
      ['%', HexUpper[b / 16], HexUpper[b % 16]]
  }

  /** The byte serializer: each byte encoded in turn. */
  function ByteSerialize(bs: seq<Utf8.byte>): (s: string)
    ensures |bs| <= |s| <= 3 * |bs|
    ensures forall i :: 0 <= i < |s| ==> IsOutputChar(s[i])
  {
    if bs == [] then "" else EncodeByte(bs[0]) + ByteSerialize(bs[1..])
  }

  /** Serializes a string: its UTF-8 bytes through the byte serializer. */
  function Serialize(s: string): (r: string)
    ensures forall i :: 0 <= i < |r| ==> IsOutputChar(r[i])
    ensures '&' !in r && '=' !in r
  {
    ByteSerialize(Utf8.Encode(s))
  }

  /** One name-value pair, `name=value`. The first `=` ends the name, and no
      `&` occurs, so the pair can sit in a list. */
  function SerializePair(p: (string, string)): (r: string)
    ensures '&' !in r
    ensures |Serialize(p.0)| < |r| && r[|Serialize(p.0)|] == '='
    ensures '=' !in r[..|Serialize(p.0)|]
  {
    Serialize(p.0) + "=" + Serialize(p.1)
  }

  /** Each pair serialized on its own. */
  function SerializeEach(ps: seq<(string, string)>): (r: seq<string>)
    ensures |r| == |ps|
  {
    if ps == [] then [] else [SerializePair(ps[0])] + SerializeEach(ps[1..])
  }

  /** A list of pairs, separated by `&`. */
  function SerializePairs(ps: seq<(string, string)>): (r: string)
    ensures r == "" <==> ps == []
    ensures ps != [] ==> '=' in r
  {
    if ps == [] then ""
    else if |ps| == 1 then SerializePair(ps[0])
    else SerializePair(ps[0]) + "&" + SerializePairs(ps[1..])
  }

  /** True when `t` occurs in `s` starting at index `i`. */
  predicate OccursAt(t: string, s: string, i: int) {
    0 <= i && i + |t| <= |s| && s[i..i + |t|] == t
  }

  /** True when `t` occurs somewhere in `s`. */
  predicate Occurs(t: string, s: string) {
    exists i :: 0 <= i <= |s| && OccursAt(t, s, i)
  }

  /** The value of a hexadecimal digit of either case. */
  function HexValue(c: char): (r: Option<nat>)
    ensures r.Some? ==> r.value < 16
  {
    if '0' <= c <= '9' then Some(c as int - '0' as int)
    else if 'A' <= c <= 'F' then Some(c as int - 'A' as int + 10)
    else if 'a' <= c <= 'f' then Some(c as int - 'a' as int + 10)
    else None
  }

  /** Percent-decoding with `+` read as a space. A `%` not followed by two
      hexadecimal digits stands for itself, and every other character for its
      UTF-8 bytes. */
  function PercentDecode(s: string): seq<Utf8.byte>
    decreases |s|
  {
    if s == [] then []
    else if s[0] == '+' then [0x20] + PercentDecode(s[1..])
    else if s[0] == '%' && |s| >= 3 && HexValue(s[1]).Some? && HexValue(s[2]).Some? then
      [HexValue(s[1]).value * 16 + HexValue(s[2]).value] + PercentDecode(s[3..])
    else Utf8.EncodeChar(s[0]) + PercentDecode(s[1..])
  }

  /** Decodes one serialized name or value back to a string, or None when its
      bytes are not UTF-8. */
  function Decode(s: string): Option<string> {
    Utf8.Decode(PercentDecode(s))
  }

  /** The position of the first `c` in `s`. */
  function IndexOf(s: string, c: char): (i: nat)
    requires c in s
    ensures i < |s| && s[i] == c && c !in s[..i]
  {
    if s[0] == c then 0 else 1 + IndexOf(s[1..], c)
  }

  /** The pieces of `s` between the occurrences of `sep`. */
  function Split(s: string, sep: char): (parts: seq<string>)
    ensures |parts| >= 1
    decreases |s|
  {
    if sep !in s then [s]
    else
      var i := IndexOf(s, sep);
      [s[..i]] + Split(s[i + 1..], sep)
  }

  /** Reads one `name=value` piece: the name ends at the first `=`; a piece
      without `=` is a name with the empty value. */
  function ParsePair(piece: string): Option<(string, string)> {
    var (name, value) :=
      if '=' in piece then
        var i := IndexOf(piece, '=');
        (piece[..i], piece[i + 1..])
      else (piece, "");
    match (Decode(name), Decode(value))
    case (Some(n), Some(v)) => Some((n, v))
    case _ => None
  }

  /** Reads a list of pieces, skipping the empty ones. */
  function ParsePieces(pieces: seq<string>): Option<seq<(string, string)>> {
    if pieces == [] then Some([])
    else if pieces[0] == "" then ParsePieces(pieces[1..])
    else
      match (ParsePair(pieces[0]), ParsePieces(pieces[1..]))
      case (Some(p), Some(ps)) => Some([p] + ps)
      case _ => None
  }

  /** Reads a serialized query back into its list of pairs. */
  function ParsePairs(s: string): Option<seq<(string, string)>> {
    ParsePieces(Split(s, '&'))
  }

  /** True when every character of `s` is one the serializer keeps as it is. */
  predicate AllKept(s: string) {
    forall i :: 0 <= i < |s| ==> s[i] as int < 0x80 && IsKept(s[i] as int)
  }

  lemma {:induction false} ByteSerializeAppend(a: seq<Utf8.byte>, b: seq<Utf8.byte>)
    ensures ByteSerialize(a + b) == ByteSerialize(a) + ByteSerialize(b)
  {
    if a == [] {
      assert a + b == b;
    } else {
      assert (a + b)[0] == a[0];
      assert (a + b)[1..] == a[1..] + b;
      ByteSerializeAppend(a[1..], b);
    }
  }

  /** Serializing a concatenation serializes the parts one after the other. */
  lemma SerializeAppend(a: string, b: string)
    ensures Serialize(a + b) == Serialize(a) + Serialize(b)
  {
    Utf8.EncodeAppend(a, b);
    ByteSerializeAppend(Utf8.Encode(a), Utf8.Encode(b));
  }

  /** A string made only of kept characters serializes to itself. */
  lemma {:induction false} SerializeKept(s: string)
    requires AllKept(s)
    ensures Serialize(s) == s
  {
    if s != [] {
      assert AllKept(s[1..]) by {
        forall i | 0 <= i < |s[1..]| ensures s[1..][i] as int < 0x80 && IsKept(s[1..][i] as int) {
          assert s[1..][i] == s[i + 1];
        }
      }
      SerializeKept(s[1..]);
      assert Utf8.Encode(s) == [s[0] as int] + Utf8.Encode(s[1..]);
      assert ByteSerialize(Utf8.Encode(s)) == EncodeByte(s[0] as int) + ByteSerialize(Utf8.Encode(s[1..]));
      assert [s[0]] + s[1..] == s;
    }
  }

  lemma HexValueUpper(k: nat)
    requires k < 16
    ensures HexValue(HexUpper[k]) == Some(k)
  {
  }

  lemma DecodeKeptByte(b: Utf8.byte, rest: string)
    requires IsKept(b)
    ensures PercentDecode([b as char] + rest) == [b] + PercentDecode(rest)
  {
    var s := [b as char] + rest;
    assert s[0] == b as char && s[1..] == rest;
    assert Utf8.EncodeChar(b as char) == [b];
  }

  lemma DecodeEscapedByte(b: Utf8.byte, rest: string)
    ensures PercentDecode(['%', HexUpper[b / 16], HexUpper[b % 16]] + rest) == [b] + PercentDecode(rest)
  {
    var s := ['%', HexUpper[b / 16], HexUpper[b % 16]] + rest;
    HexValueUpper(b / 16);
    HexValueUpper(b % 16);
    assert s[0] == '%' && s[1] == HexUpper[b / 16] && s[2] == HexUpper[b % 16];
    assert s[3..] == rest;
  }

  /** Decoding the serialization of one byte gives that byte back and leaves
      whatever follows to be decoded on its own. */
  lemma DecodeEncodeByte(b: Utf8.byte, rest: string)
    ensures PercentDecode(EncodeByte(b) + rest) == [b] + PercentDecode(rest)
  {
    if IsKept(b) {
      DecodeKeptByte(b, rest);
    } else if b == 0x20 {
      assert (EncodeByte(b) + rest)[1..] == rest;
    } else {
      DecodeEscapedByte(b, rest);
    }
  }

  /** The byte serializer is lossless. */
  lemma {:induction false} DecodeByteSerialize(bs: seq<Utf8.byte>)
    ensures PercentDecode(ByteSerialize(bs)) == bs
  {
    if bs != [] {
      DecodeEncodeByte(bs[0], ByteSerialize(bs[1..]));
      DecodeByteSerialize(bs[1..]);
    }
  }

  /** Serializing a string and decoding the result gives the string back. */
  lemma DecodeSerialize(s: string)
    ensures Decode(Serialize(s)) == Some(s)
  {
    DecodeByteSerialize(Utf8.Encode(s));
    Utf8.DecodeEncode(s);
  }

  lemma IndexOfAfter(a: string, c: char, b: string)
    requires c !in a
    ensures IndexOf(a + [c] + b, c) == |a|
  {
    var s := a + [c] + b;
    assert s[|a|] == c;
  }

  lemma SplitAfter(a: string, sep: char, b: string)
    requires sep !in a
    ensures Split(a + [sep] + b, sep) == [a] + Split(b, sep)
  {
    var s := a + [sep] + b;
    assert s[|a|] == sep;
    IndexOfAfter(a, sep, b);
    assert s[..|a|] == a;
    assert s[|a| + 1..] == b;
  }

  /** Splitting a serialized list at `&` yields the serialized pairs. */
  lemma {:induction false} SplitSerializePairs(ps: seq<(string, string)>)
    requires ps != []
    ensures Split(SerializePairs(ps), '&') == SerializeEach(ps)
  {
    if |ps| == 1 {
      assert '&' !in SerializePair(ps[0]);
    } else {
      assert '&' !in SerializePair(ps[0]);
      SplitAfter(SerializePair(ps[0]), '&', SerializePairs(ps[1..]));
      SplitSerializePairs(ps[1..]);
    }
  }

  lemma ParseSerializePair(p: (string, string))
    ensures ParsePair(SerializePair(p)) == Some(p)
  {
    var n := Serialize(p.0);
    var v := Serialize(p.1);
    var piece := SerializePair(p);
    assert piece == n + ['='] + v;
    IndexOfAfter(n, '=', v);
    assert piece[..|n|] == n;
    assert piece[|n| + 1..] == v;
    DecodeSerialize(p.0);
    DecodeSerialize(p.1);
  }

  lemma ParsePiecesCons(piece: string, rest: seq<string>)
    requires piece != ""
    ensures ParsePieces([piece] + rest) ==
      match (ParsePair(piece), ParsePieces(rest))
      case (Some(p), Some(ps)) => Some([p] + ps)
      case _ => None
  {
    assert ([piece] + rest)[1..] == rest;
  }

  lemma {:induction false} ParsePiecesSerialized(ps: seq<(string, string)>)
    ensures ParsePieces(SerializeEach(ps)) == Some(ps)
  {
    if ps != [] {
      var head := SerializePair(ps[0]);
      assert head != "" by {
        assert head[|Serialize(ps[0].0)|] == '=';
      }
      ParseSerializePair(ps[0]);
      ParsePiecesSerialized(ps[1..]);
      ParsePiecesCons(head, SerializeEach(ps[1..]));
      assert [ps[0]] + ps[1..] == ps;
    }
  }

  /** The query serializer is lossless: parsing a serialized list of pairs gives
      back exactly the pairs, in their order, duplicates included. */
  lemma ParseSerializePairs(ps: seq<(string, string)>)
    ensures ParsePairs(SerializePairs(ps)) == Some(ps)
  {
    if ps == [] {
      assert Split("", '&') == [""];
    } else {
      SplitSerializePairs(ps);
      ParsePiecesSerialized(ps);
    }
  }

  lemma OccursSelf(t: string)
    ensures Occurs(t, t)
  {
    assert OccursAt(t, t, 0);
  }

  /** An occurrence survives text added on either side. */
  lemma OccursWithin(t: string, a: string, s: string, b: string)
    requires Occurs(t, s)
    ensures Occurs(t, a + s + b)
  {
    var i :| 0 <= i <= |s| && OccursAt(t, s, i);
    assert (a + s + b)[|a| + i..|a| + i + |t|] == s[i..i + |t|];
    assert OccursAt(t, a + s + b, |a| + i);
  }

  lemma OccursFirst(t: string, rest: string)
    ensures Occurs(t, t + "&" + rest)
  {
    OccursSelf(t);
    OccursWithin(t, "", t, "&" + rest);
    assert "" + t + ("&" + rest) == t + "&" + rest;
  }

  lemma OccursLater(t: string, head: string, rest: string)
    requires Occurs(t, rest)
    ensures Occurs(t, head + "&" + rest)
  {
    OccursWithin(t, head + "&", rest, "");
    assert head + "&" + rest + "" == head + "&" + rest;
  }

  /** Every pair of the list appears, serialized, in the serialized list. */
  lemma {:induction false} SerializePairsCarries(ps: seq<(string, string)>, k: nat)
    requires k < |ps|
    ensures Occurs(SerializePair(ps[k]), SerializePairs(ps))
    decreases |ps|
  {
    if |ps| == 1 {
      OccursSelf(SerializePair(ps[k]));
    } else if k == 0 {
      OccursFirst(SerializePair(ps[0]), SerializePairs(ps[1..]));
    } else {
      assert ps[1..][k - 1] == ps[k];
      SerializePairsCarries(ps[1..], k - 1);
      OccursLater(SerializePair(ps[k]), SerializePair(ps[0]), SerializePairs(ps[1..]));
    }
  }
}

=== FILE: intended.dfy ===
/** The two slips in `build_url` and the parameter list it evidently means to
    send: the start index once, and the print type under `printType`. */
module Intended {
  import opened Wrappers
  import opened Decimal
  import opened Queries
  import opened UrlLaws
  import opened UrlRead
  import FormUrlEncoded

  /** As written, a set start index is sent twice under `startIndex`. */
  lemma StartIndexSentTwice(vq: VolumeQuery)
    requires vq.startIndex.Some?
    ensures ValuesOf(Params(vq), StartIndexParam) == [Show(vq.startIndex.value), Show(vq.startIndex.value)]
  {
    ValuesOfStartIndex(vq);
  }

  /** As written, a set print type is sent under `projection`, after any
      projection, and nothing is ever sent under `printType`. */
  lemma PrintTypeSentAsProjection(vq: VolumeQuery)
    requires vq.printType.Some?
    ensures ValuesOf(Params(vq), PrintTypeParam) == []
    ensures ValuesOf(Params(vq), ProjectionParam)
            == Listed(RenderProjectionOpt(vq.projection)) + [RenderPrintType(vq.printType.value)]
  {
    ValuesOfPrintType(vq);
    ValuesOfProjection(vq);
  }

  /** A query with projection `Lite` and print type `Books` sends two
      `projection` values and no `printType`. */
  lemma LiteBooksExample(vq: VolumeQuery)
    requires vq.projection == Some(Lite) && vq.printType == Some(Books)
    ensures ValuesOf(Params(vq), ProjectionParam) == ["lite", "books"]
    ensures ValuesOf(Params(vq), PrintTypeParam) == []
  {
    PrintTypeSentAsProjection(vq);
  }

  /** The pairs `build_url` evidently means to collect: `q`, then each set
      option once, under its own name. */
  function IntendedParams(vq: VolumeQuery): (r: seq<(Param, string)>)
    ensures |r| >= 1 && r[0] == (QParam, vq.q)
    ensures |r| == 1 + Present(vq.maxResults) + Present(vq.startIndex)
                    + Present(vq.langRestrict) + Present(vq.projection) + Present(vq.printType)
  {
    [(QParam, vq.q)]
    + OptionalPair(MaxResultsParam, ShowOpt(vq.maxResults))
    + OptionalPair(StartIndexParam, ShowOpt(vq.startIndex))
    + OptionalPair(LangRestrictParam, vq.langRestrict)
    + OptionalPair(ProjectionParam, RenderProjectionOpt(vq.projection))
    + OptionalPair(PrintTypeParam, RenderPrintTypeOpt(vq.printType))
  }

  /** The URL with the corrected pairs. */
  function IntendedBuildUrl(vq: VolumeQuery, base: string): (url: string)
    ensures |url| > |base| + |VolumesPath| + 1
    ensures url[..|base| + |VolumesPath|] == base + VolumesPath
    ensures url[|base| + |VolumesPath|] == '?'
  {
    base + VolumesPath + "?" + FormUrlEncoded.SerializePairs(Spelled(IntendedParams(vq)))
  }

  lemma IntendedSlots(vq: VolumeQuery, key: Param)
    ensures ValuesOf(IntendedParams(vq), key) ==
      Slot(QParam, Some(vq.q), key)
      + Slot(MaxResultsParam, ShowOpt(vq.maxResults), key)
      + Slot(StartIndexParam, ShowOpt(vq.startIndex), key)
      + Slot(LangRestrictParam, vq.langRestrict, key)
      + Slot(ProjectionParam, RenderProjectionOpt(vq.projection), key)
      + Slot(PrintTypeParam, RenderPrintTypeOpt(vq.printType), key)
      + []
  {
    var s0 := OptionalPair(QParam, Some(vq.q));
    var s1 := OptionalPair(MaxResultsParam, ShowOpt(vq.maxResults));
    var s2 := OptionalPair(StartIndexParam, ShowOpt(vq.startIndex));
    var s3 := OptionalPair(LangRestrictParam, vq.langRestrict);
    var s4 := OptionalPair(ProjectionParam, RenderProjectionOpt(vq.projection));
    var s5 := OptionalPair(PrintTypeParam, RenderPrintTypeOpt(vq.printType));
    // The corrected list has six parts; an empty seventh lets `SevenParts` split it.
    assert IntendedParams(vq) == s0 + s1 + s2 + s3 + s4 + s5 + [];
    SevenParts(s0, s1, s2, s3, s4, s5, [], key);
    SlotValues(QParam, Some(vq.q), key);
    SlotValues(MaxResultsParam, ShowOpt(vq.maxResults), key);
    SlotValues(StartIndexParam, ShowOpt(vq.startIndex), key);
    SlotValues(LangRestrictParam, vq.langRestrict, key);
    SlotValues(ProjectionParam, RenderProjectionOpt(vq.projection), key);
    SlotValues(PrintTypeParam, RenderPrintTypeOpt(vq.printType), key);
  }

  lemma IntendedQ(vq: VolumeQuery)
    ensures ValuesOf(IntendedParams(vq), QParam) == [vq.q]
  {
    IntendedSlots(vq, QParam);
  }

  lemma IntendedMaxResults(vq: VolumeQuery)
    ensures ValuesOf(IntendedParams(vq), MaxResultsParam) == Listed(ShowOpt(vq.maxResults))
  {
    IntendedSlots(vq, MaxResultsParam);
  }

  lemma IntendedStartIndex(vq: VolumeQuery)
    ensures ValuesOf(IntendedParams(vq), StartIndexParam) == Listed(ShowOpt(vq.startIndex))
  {
    IntendedSlots(vq, StartIndexParam);
  }

  lemma IntendedLangRestrict(vq: VolumeQuery)
    ensures ValuesOf(IntendedParams(vq), LangRestrictParam) == Listed(vq.langRestrict)
  {
    IntendedSlots(vq, LangRestrictParam);
  }

  lemma IntendedProjection(vq: VolumeQuery)
    ensures ValuesOf(IntendedParams(vq), ProjectionParam) == Listed(RenderProjectionOpt(vq.projection))
  {
    IntendedSlots(vq, ProjectionParam);
  }

  lemma IntendedPrintType(vq: VolumeQuery)
    ensures ValuesOf(IntendedParams(vq), PrintTypeParam) == Listed(RenderPrintTypeOpt(vq.printType))
  {
    IntendedSlots(vq, PrintTypeParam);
  }

  /** Corrected, every name carries exactly the value of its own field, once
      when the field is set and not at all otherwise. */
  lemma IntendedValues(vq: VolumeQuery)
    ensures ValuesOf(IntendedParams(vq), QParam) == [vq.q]
    ensures ValuesOf(IntendedParams(vq), MaxResultsParam) == Listed(ShowOpt(vq.maxResults))
    ensures ValuesOf(IntendedParams(vq), StartIndexParam) == Listed(ShowOpt(vq.startIndex))
    ensures ValuesOf(IntendedParams(vq), LangRestrictParam) == Listed(vq.langRestrict)
    ensures ValuesOf(IntendedParams(vq), ProjectionParam) == Listed(RenderProjectionOpt(vq.projection))
    ensures ValuesOf(IntendedParams(vq), PrintTypeParam) == Listed(RenderPrintTypeOpt(vq.printType))
    ensures forall key :: |ValuesOf(IntendedParams(vq), key)| <= 1
  {
    IntendedQ(vq);
    IntendedMaxResults(vq);
    IntendedStartIndex(vq);
    IntendedLangRestrict(vq);
    IntendedProjection(vq);
    IntendedPrintType(vq);
    forall key ensures |ValuesOf(IntendedParams(vq), key)| <= 1 {
      match key
      case QParam =>
      case MaxResultsParam =>
      case StartIndexParam =>
      case LangRestrictParam =>
      case ProjectionParam =>
      case PrintTypeParam =>
    }
  }

  lemma FirstProjectionListed(p: Option<Projection>)
    ensures FirstProjection(Listed(RenderProjectionOpt(p))) == p
  {
  }

  lemma FirstPrintTypeListed(t: Option<PrintType>)
    ensures FirstPrintType(Listed(RenderPrintTypeOpt(t))) == t
  {
  }

  /** The corrected pairs determine the query, each field read from its own name. */
  lemma RecoverIntendedParams(vq: VolumeQuery)
    ensures Recover(IntendedParams(vq), PrintTypeParam) == Some(vq)
  {
    IntendedValues(vq);
    ReadInt32Listed(vq.maxResults);
    ReadInt32Listed(vq.startIndex);
    FirstProjectionListed(vq.projection);
    FirstPrintTypeListed(vq.printType);
  }

  /** Round trip of the corrected URL, reading the print type from `printType`. */
  lemma ReadIntendedBuildUrl(vq: VolumeQuery, base: string)
    ensures ReadUrl(IntendedBuildUrl(vq, base), base, PrintTypeParam) == Some(vq)
  {
    ReadSerialized(IntendedParams(vq), base, PrintTypeParam);
    RecoverIntendedParams(vq);
  }

  /** The query part of the corrected URL parses back to exactly the corrected
      pairs, in order. */
  lemma ParseIntendedBuildUrl(vq: VolumeQuery, base: string)
    ensures FormUrlEncoded.ParsePairs(IntendedBuildUrl(vq, base)[|base| + |VolumesPath| + 1..])
            == Some(Spelled(IntendedParams(vq)))
  {
    assert IntendedBuildUrl(vq, base)[|base + VolumesPath + "?"|..]
        == FormUrlEncoded.SerializePairs(Spelled(IntendedParams(vq)));
    FormUrlEncoded.ParseSerializePairs(Spelled(IntendedParams(vq)));
  }
}

=== FILE: queries.dfy ===
/** The `VolumeQuery` builder for the Google Books volumes search: a search
    string `q` assembled from `keyword:value` predicates, five optional
    request options, and the URL that carries them. */
module Queries {
  import opened Wrappers
  import opened Decimal
  import FormUrlEncoded

  /** How much volume metadata the service returns. */
  datatype Projection = Full | Lite

  /** The wire name of a projection (its `Display` rendering). */
  function RenderProjection(p: Projection): (r: string)
    ensures ParseProjection(r) == Some(p)
    ensures ParsePrintType(r) == None
  {
    match p
    case Full => "full"
    case Lite => "lite"
  }

  /** The projection a wire name denotes, if any. */
  function ParseProjection(s: string): Option<Projection> {
    if s == "full" then Some(Full)
    else if s == "lite" then Some(Lite)
    else None
  }

  /** Which kind of publication the service returns. */
  datatype PrintType = All | Books | Magazines

  /** The wire name of a print type (its `Display` rendering). */
  function RenderPrintType(t: PrintType): (r: string)
    ensures ParsePrintType(r) == Some(t)
    ensures ParseProjection(r) == None
  {
    match t
    case Books => "books"
    case All => "all"
    case Magazines => "magazines"
  }

  /** The print type a wire name denotes, if any. */
  function ParsePrintType(s: string): Option<PrintType> {
    if s == "books" then Some(Books)
    else if s == "all" then Some(All)
    else if s == "magazines" then Some(Magazines)
    else None
  }

  /** The fields a search predicate can restrict. */
  datatype Field = Isbn | Title | Author | Publisher | Subject | Lccn | Oclc

  /** The keyword the service expects before the colon for each field. */
  function Keyword(f: Field): (r: string)
    ensures FieldOfKeyword(r) == Some(f)
    ensures ':' !in r
  {
    match f
    case Isbn => "isbn"
    case Title => "intitle"
    case Author => "inauthor"
    case Publisher => "inpublisher"
    case Subject => "subject"
    case Lccn => "lccn"
    case Oclc => "oclc"
  }

  /** The field a keyword names, if any. */
  function FieldOfKeyword(k: string): Option<Field> {
    if k == "isbn" then Some(Isbn)
    else if k == "intitle" then Some(Title)
    else if k == "inauthor" then Some(Author)
    else if k == "inpublisher" then Some(Publisher)
    else if k == "subject" then Some(Subject)
    else if k == "lccn" then Some(Lccn)
    else if k == "oclc" then Some(Oclc)
    else None
  }

  /** A search predicate, `keyword:value`. */
  function Predicate(f: Field, v: string): string {
    Keyword(f) + ":" + v
  }

  /** Reads a predicate back: the keyword is everything before the first colon. */
  function ParsePredicate(t: string): Option<(Field, string)> {
    if ':' !in t then None
    else
      var i := FormUrlEncoded.IndexOf(t, ':');
      match FieldOfKeyword(t[..i])
      case Some(f) => Some((f, t[i + 1..]))
      case None => None
  }

  /** The query: the search string and the five options, each absent until set. */
  datatype VolumeQuery = VolumeQuery(
    q: string,
    maxResults: Option<Int32>,
    startIndex: Option<Int32>,
    langRestrict: Option<string>,
    projection: Option<Projection>,
    printType: Option<PrintType>)

  /** True when none of the five options is set. */
  predicate NoOptions(vq: VolumeQuery) {
    && vq.maxResults.None? && vq.startIndex.None? && vq.langRestrict.None?
    && vq.projection.None? && vq.printType.None?
  }

  /** True when `a` and `b` agree on all five options (they may differ in `q`). */
  predicate SameOptions(a: VolumeQuery, b: VolumeQuery) {
    && a.maxResults == b.maxResults && a.startIndex == b.startIndex
    && a.langRestrict == b.langRestrict && a.projection == b.projection
    && a.printType == b.printType
  }

  /** `VolumeQuery::new`: any search string, the empty one included, with no options. */
  function New(search: string): (r: VolumeQuery)
    ensures r.q == search
    ensures NoOptions(r)
  {
    VolumeQuery(search, None, None, None, None, None)
  }

  /** A query holding the single predicate `keyword:value` and no options. */
  function ByField(f: Field, v: string): (r: VolumeQuery)
    ensures r.q == Predicate(f, v)
    ensures NoOptions(r)
  {
    New(Predicate(f, v))
  }

  /** Appends a space and `keyword:value` to the search string and changes
      nothing else: the old string is a prefix of the new one. */
  function AndField(vq: VolumeQuery, f: Field, v: string): (r: VolumeQuery)
    ensures |r.q| > |vq.q| && r.q[..|vq.q|] == vq.q && r.q[|vq.q|] == ' '
    ensures r.q[|vq.q| + 1..] == Predicate(f, v)
    ensures SameOptions(r, vq)
  {
    var r := vq.(q := vq.q + " " + Predicate(f, v));
    assert r.q[|vq.q| + 1..] == Predicate(f, v);
    r
  }

  /** No keyword contains a colon, so the first colon of a predicate ends its keyword. */
  lemma ColonAfterKeyword(f: Field, v: string)
    ensures ParsePredicate(Predicate(f, v)) == Some((f, v))
  {
    var t := Keyword(f) + [':'] + v;
    assert ':' !in Keyword(f);
    FormUrlEncoded.IndexOfAfter(Keyword(f), ':', v);
    assert t[..|Keyword(f)|] == Keyword(f);
    assert t[|Keyword(f)| + 1..] == v;
  }

  // The named constructors and `and_*` methods below each spell out their own
  // keyword, as the code does; each contract says it is the instance of the
  // uniform rule (`ByField`, `AndField`) for its field.

  function IsbnQuery(v: string): (r: VolumeQuery)
    ensures r == ByField(Isbn, v)
  {
    New("isbn:" + v)
  }

  function TitleQuery(v: string): (r: VolumeQuery)
    ensures r == ByField(Title, v)
  {
    New("intitle:" + v)
  }

  function AuthorQuery(v: string): (r: VolumeQuery)
    ensures r == ByField(Author, v)
  {
    New("inauthor:" + v)
  }

  function PublisherQuery(v: string): (r: VolumeQuery)
    ensures r == ByField(Publisher, v)
  {
    New("inpublisher:" + v)
  }

  function SubjectQuery(v: string): (r: VolumeQuery)
    ensures r == ByField(Subject, v)
  {
    New("subject:" + v)
  }

  function LccnQuery(v: string): (r: VolumeQuery)
    ensures r == ByField(Lccn, v)
  {
    New("lccn:" + v)
  }

  function OclcQuery(v: string): (r: VolumeQuery)
    ensures r == ByField(Oclc, v)
  {
    New("oclc:" + v)
  }

  function AndIsbn(vq: VolumeQuery, v: string): (r: VolumeQuery)
    ensures r == AndField(vq, Isbn, v)
  {
    vq.(q := vq.q + " isbn:" + v)
  }

  function AndTitle(vq: VolumeQuery, v: string): (r: VolumeQuery)
    ensures r == AndField(vq, Title, v)
  {
    vq.(q := vq.q + " intitle:" + v)
  }

  function AndAuthor(vq: VolumeQuery, v: string): (r: VolumeQuery)
    ensures r == AndField(vq, Author, v)
  {
    vq.(q := vq.q + " inauthor:" + v)
  }

  function AndPublisher(vq: VolumeQuery, v: string): (r: VolumeQuery)
    ensures r == AndField(vq, Publisher, v)
  {
    vq.(q := vq.q + " inpublisher:" + v)
  }

  function AndSubject(vq: VolumeQuery, v: string): (r: VolumeQuery)
    ensures r == AndField(vq, Subject, v)
  {
    vq.(q := vq.q + " subject:" + v)
  }

  function AndLccn(vq: VolumeQuery, v: string): (r: VolumeQuery)
    ensures r == AndField(vq, Lccn, v)
  {
    vq.(q := vq.q + " lccn:" + v)
  }

  function AndOclc(vq: VolumeQuery, v: string): (r: VolumeQuery)
    ensures r == AndField(vq, Oclc, v)
  {
    vq.(q := vq.q + " oclc:" + v)
  }

  /** `max_results`: sets that option, whatever its sign, and leaves the rest. */
  function WithMaxResults(vq: VolumeQuery, n: Int32): (r: VolumeQuery)
    ensures r.maxResults == Some(n)
    ensures r == vq.(maxResults := r.maxResults)
  {
    vq.(maxResults := Some(n))
  }

  /** `start_index`: sets that option, whatever its sign, and leaves the rest. */
  function WithStartIndex(vq: VolumeQuery, n: Int32): (r: VolumeQuery)
    ensures r.startIndex == Some(n)
    ensures r == vq.(startIndex := r.startIndex)
  {
    vq.(startIndex := Some(n))
  }

  /** `lang_restrict`: sets that option, unvalidated, and leaves the rest. */
  function WithLangRestrict(vq: VolumeQuery, lang: string): (r: VolumeQuery)
    ensures r.langRestrict == Some(lang)
    ensures r == vq.(langRestrict := r.langRestrict)
  {
    vq.(langRestrict := Some(lang))
  }

  /** `projection`: sets that option and leaves the rest. */
  function WithProjection(vq: VolumeQuery, p: Projection): (r: VolumeQuery)
    ensures r.projection == Some(p)
    ensures r == vq.(projection := r.projection)
  {
    vq.(projection := Some(p))
  }

  /** `print_type`: sets that option and leaves the rest. */
  function WithPrintType(vq: VolumeQuery, t: PrintType): (r: VolumeQuery)
    ensures r.printType == Some(t)
    ensures r == vq.(printType := r.printType)
  {
    vq.(printType := Some(t))
  }

  /** The query parameter names `build_url` can write. `PrintTypeParam` is the
      name the print type evidently should go under; the code never writes it. */
  datatype Param = QParam | MaxResultsParam | StartIndexParam | LangRestrictParam | ProjectionParam | PrintTypeParam

  /** The text of each parameter name on the wire. */
  function ParamText(p: Param): (r: string)
    ensures ParseParam(r) == Some(p)
  {
    match p
    case QParam => "q"
    case MaxResultsParam => "maxResults"
    case StartIndexParam => "startIndex"
    case LangRestrictParam => "langRestrict"
    case ProjectionParam => "projection"
    case PrintTypeParam => "printType"
  }

  /** The parameter a wire name denotes, if any. */
  function ParseParam(s: string): Option<Param> {
    if s == "q" then Some(QParam)
    else if s == "maxResults" then Some(MaxResultsParam)
    else if s == "startIndex" then Some(StartIndexParam)
    else if s == "langRestrict" then Some(LangRestrictParam)
    else if s == "projection" then Some(ProjectionParam)
    else if s == "printType" then Some(PrintTypeParam)
    else None
  }

  /** One name-value pair for an option: none when the option is absent. */
  function OptionalPair(name: Param, value: Option<string>): (r: seq<(Param, string)>)
    ensures |r| == if value.Some? then 1 else 0
  {
    match value
    case Some(v) => [(name, v)]
    case None => []
  }

  function ShowOpt(n: Option<Int32>): Option<string> {
    match n
    case Some(v) => Some(Show(v))
    case None => None
  }

  function RenderProjectionOpt(p: Option<Projection>): Option<string> {
    match p
    case Some(v) => Some(RenderProjection(v))
    case None => None
  }

  function RenderPrintTypeOpt(t: Option<PrintType>): Option<string> {
    match t
    case Some(v) => Some(RenderPrintType(v))
    case None => None
  }

  /** 1 for a set option, 0 for an absent one. */
  function Present<T>(o: Option<T>): nat {
    if o.Some? then 1 else 0
  }

  /** The query pairs `build_url` collects, as the code writes them: `q` first,
      then the set options in a fixed order, with the start index written twice
      and the print type written under the name `projection`. */
  function Params(vq: VolumeQuery): (r: seq<(Param, string)>)
    ensures |r| >= 1 && r[0] == (QParam, vq.q)
    ensures |r| == 1 + Present(vq.maxResults) + 2 * Present(vq.startIndex)
                    + Present(vq.langRestrict) + Present(vq.projection) + Present(vq.printType)
  {
    [(QParam, vq.q)]
    + OptionalPair(MaxResultsParam, ShowOpt(vq.maxResults))
    + OptionalPair(StartIndexParam, ShowOpt(vq.startIndex))
    + OptionalPair(StartIndexParam, ShowOpt(vq.startIndex))
    + OptionalPair(LangRestrictParam, vq.langRestrict)
    + OptionalPair(ProjectionParam, RenderProjectionOpt(vq.projection))
    + OptionalPair(ProjectionParam, RenderPrintTypeOpt(vq.printType))
  }

  /** The pairs with their names spelled out, as handed to the URL library. */
  function Spelled(ps: seq<(Param, string)>): (r: seq<(string, string)>)
    ensures |r| == |ps|
  {
    if ps == [] then [] else [(ParamText(ps[0].0), ps[0].1)] + Spelled(ps[1..])
  }

  /** The path of the volumes collection, appended to the base URL. */
  const VolumesPath: string := "/books/v1/volumes"

  /** `build_url`: the base URL, the volumes path, `?`, and the pairs serialized
      as `application/x-www-form-urlencoded`. */
  function BuildUrl(vq: VolumeQuery, base: string): (url: string)
    ensures |url| > |base| + |VolumesPath| + 1
    ensures url[..|base| + |VolumesPath|] == base + VolumesPath
    ensures url[|base| + |VolumesPath|] == '?'
  {
    base + VolumesPath + "?" + FormUrlEncoded.SerializePairs(Spelled(Params(vq)))
  }
}

=== FILE: url_laws.dfy ===
/** What `build_url` sends: which pairs, in which order, and that the URL
    determines the query it was built from. */
module UrlLaws {
  import opened Wrappers
  import opened Decimal
  import opened Queries
  import FormUrlEncoded

  /** The values sent under `key`, in order. */
  function ValuesOf(ps: seq<(Param, string)>, key: Param): (vs: seq<string>)
    ensures |vs| <= |ps|
  {
    if ps == [] then []
    else if ps[0].0 == key then [ps[0].1] + ValuesOf(ps[1..], key)
    else ValuesOf(ps[1..], key)
  }

  /** The names of the pairs, in order. */
  function Keys(ps: seq<(Param, string)>): (ks: seq<Param>)
    ensures |ks| == |ps|
  {
    if ps == [] then [] else [ps[0].0] + Keys(ps[1..])
  }

  /** The values an option contributes: one when set, none when absent. */
  function Listed(o: Option<string>): (vs: seq<string>)
    ensures |vs| == Present(o)
  {
    match o
    case Some(v) => [v]
    case None => []
  }

  lemma {:induction false} ValuesOfAppend(a: seq<(Param, string)>, b: seq<(Param, string)>, key: Param)
    ensures ValuesOf(a + b, key) == ValuesOf(a, key) + ValuesOf(b, key)
    decreases |a|
  {
    if a == [] {
      assert a + b == b;
    } else {
      assert (a + b)[0] == a[0];
      assert (a + b)[1..] == a[1..] + b;
      ValuesOfAppend(a[1..], b, key);
      if a[0].0 == key {
        assert [a[0].1] + (ValuesOf(a[1..], key) + ValuesOf(b, key))
               == [a[0].1] + ValuesOf(a[1..], key) + ValuesOf(b, key);
      }
    }
  }

  lemma {:induction false} KeysAppend(a: seq<(Param, string)>, b: seq<(Param, string)>)
    ensures Keys(a + b) == Keys(a) + Keys(b)
  {
    if a == [] {
      assert a + b == b;
    } else {
      assert (a + b)[0] == a[0];
      assert (a + b)[1..] == a[1..] + b;
      KeysAppend(a[1..], b);
    }
  }

  /** The values one optional pair contributes under `key`. */
  function Slot(name: Param, value: Option<string>, key: Param): seq<string> {
    if name == key then Listed(value) else []
  }

  lemma SlotValues(name: Param, value: Option<string>, key: Param)
    ensures ValuesOf(OptionalPair(name, value), key) == Slot(name, value, key)
  {
  }

  lemma SevenParts(s0: seq<(Param, string)>, s1: seq<(Param, string)>, s2: seq<(Param, string)>,
                   s3: seq<(Param, string)>, s4: seq<(Param, string)>, s5: seq<(Param, string)>,
                   s6: seq<(Param, string)>, key: Param)
    ensures ValuesOf(s0 + s1 + s2 + s3 + s4 + s5 + s6, key)
      == ValuesOf(s0, key) + ValuesOf(s1, key) + ValuesOf(s2, key) + ValuesOf(s3, key)
         + ValuesOf(s4, key) + ValuesOf(s5, key) + ValuesOf(s6, key)
    ensures Keys(s0 + s1 + s2 + s3 + s4 + s5 + s6)
      == Keys(s0) + Keys(s1) + Keys(s2) + Keys(s3) + Keys(s4) + Keys(s5) + Keys(s6)
  {
    ValuesOfAppend(s0, s1, key);
    ValuesOfAppend(s0 + s1, s2, key);
    ValuesOfAppend(s0 + s1 + s2, s3, key);
    ValuesOfAppend(s0 + s1 + s2 + s3, s4, key);
    ValuesOfAppend(s0 + s1 + s2 + s3 + s4, s5, key);
    ValuesOfAppend(s0 + s1 + s2 + s3 + s4 + s5, s6, key);
    KeysAppend(s0, s1);
    KeysAppend(s0 + s1, s2);
    KeysAppend(s0 + s1 + s2, s3);
    KeysAppend(s0 + s1 + s2 + s3, s4);
    KeysAppend(s0 + s1 + s2 + s3 + s4, s5);
    KeysAppend(s0 + s1 + s2 + s3 + s4 + s5, s6);
  }

  /** The pairs `build_url` collects, slot by slot. */
  lemma ParamsSlots(vq: VolumeQuery, key: Param)
    ensures ValuesOf(Params(vq), key) ==
      Slot(QParam, Some(vq.q), key)
      + Slot(MaxResultsParam, ShowOpt(vq.maxResults), key)
      + Slot(StartIndexParam, ShowOpt(vq.startIndex), key)
      + Slot(StartIndexParam, ShowOpt(vq.startIndex), key)
      + Slot(LangRestrictParam, vq.langRestrict, key)
      + Slot(ProjectionParam, RenderProjectionOpt(vq.projection), key)
      + Slot(ProjectionParam, RenderPrintTypeOpt(vq.printType), key)
  {
    ParamsParts(vq, key);
    SlotValues(QParam, Some(vq.q), key);
    SlotValues(MaxResultsParam, ShowOpt(vq.maxResults), key);
    SlotValues(StartIndexParam, ShowOpt(vq.startIndex), key);
    SlotValues(LangRestrictParam, vq.langRestrict, key);
    SlotValues(ProjectionParam, RenderProjectionOpt(vq.projection), key);
    SlotValues(ProjectionParam, RenderPrintTypeOpt(vq.printType), key);
  }

  lemma ParamsParts(vq: VolumeQuery, key: Param)
    ensures ValuesOf(Params(vq), key) ==
      ValuesOf(OptionalPair(QParam, Some(vq.q)), key)
      + ValuesOf(OptionalPair(MaxResultsParam, ShowOpt(vq.maxResults)), key)
      + ValuesOf(OptionalPair(StartIndexParam, ShowOpt(vq.startIndex)), key)
      + ValuesOf(OptionalPair(StartIndexParam, ShowOpt(vq.startIndex)), key)
      + ValuesOf(OptionalPair(LangRestrictParam, vq.langRestrict), key)
      + ValuesOf(OptionalPair(ProjectionParam, RenderProjectionOpt(vq.projection)), key)
      + ValuesOf(OptionalPair(ProjectionParam, RenderPrintTypeOpt(vq.printType)), key)
    ensures Keys(Params(vq)) ==
      Keys(OptionalPair(QParam, Some(vq.q)))
      + Keys(OptionalPair(MaxResultsParam, ShowOpt(vq.maxResults)))
      + Keys(OptionalPair(StartIndexParam, ShowOpt(vq.startIndex)))
      + Keys(OptionalPair(StartIndexParam, ShowOpt(vq.startIndex)))
      + Keys(OptionalPair(LangRestrictParam, vq.langRestrict))
      + Keys(OptionalPair(ProjectionParam, RenderProjectionOpt(vq.projection)))
      + Keys(OptionalPair(ProjectionParam, RenderPrintTypeOpt(vq.printType)))
  {
    assert Params(vq) == OptionalPair(QParam, Some(vq.q)) + OptionalPair(MaxResultsParam, ShowOpt(vq.maxResults))
      + OptionalPair(StartIndexParam, ShowOpt(vq.startIndex)) + OptionalPair(StartIndexParam, ShowOpt(vq.startIndex))
      + OptionalPair(LangRestrictParam, vq.langRestrict) + OptionalPair(ProjectionParam, RenderProjectionOpt(vq.projection))
      + OptionalPair(ProjectionParam, RenderPrintTypeOpt(vq.printType));
    SevenParts(OptionalPair(QParam, Some(vq.q)), OptionalPair(MaxResultsParam, ShowOpt(vq.maxResults)),
      OptionalPair(StartIndexParam, ShowOpt(vq.startIndex)), OptionalPair(StartIndexParam, ShowOpt(vq.startIndex)),
      OptionalPair(LangRestrictParam, vq.langRestrict), OptionalPair(ProjectionParam, RenderProjectionOpt(vq.projection)),
      OptionalPair(ProjectionParam, RenderPrintTypeOpt(vq.printType)), key);
  }

  lemma ValuesOfQ(vq: VolumeQuery)
    ensures ValuesOf(Params(vq), QParam) == [vq.q]
  {
    ParamsSlots(vq, QParam);
  }

  lemma ValuesOfMaxResults(vq: VolumeQuery)
    ensures ValuesOf(Params(vq), MaxResultsParam) == Listed(ShowOpt(vq.maxResults))
  {
    ParamsSlots(vq, MaxResultsParam);
  }

  lemma ValuesOfStartIndex(vq: VolumeQuery)
    ensures ValuesOf(Params(vq), StartIndexParam) == Listed(ShowOpt(vq.startIndex)) + Listed(ShowOpt(vq.startIndex))
  {
    ParamsSlots(vq, StartIndexParam);
  }

  lemma ValuesOfLangRestrict(vq: VolumeQuery)
    ensures ValuesOf(Params(vq), LangRestrictParam) == Listed(vq.langRestrict)
  {
    ParamsSlots(vq, LangRestrictParam);
  }

  lemma ValuesOfProjection(vq: VolumeQuery)
    ensures ValuesOf(Params(vq), ProjectionParam) == Listed(RenderProjectionOpt(vq.projection)) + Listed(RenderPrintTypeOpt(vq.printType))
  {
    ParamsSlots(vq, ProjectionParam);
  }

  lemma ValuesOfPrintType(vq: VolumeQuery)
    ensures ValuesOf(Params(vq), PrintTypeParam) == []
  {
    ParamsSlots(vq, PrintTypeParam);
  }

  /** Which values `build_url` sends under each name: `q` exactly once with the
      search string; each numeric option's decimal rendering when it is set (the
      start index twice); the language code as given; under `projection` first
      the projection's name and then the print type's; nothing under
      `printType`. An absent option sends nothing. */
  lemma ParamsValues(vq: VolumeQuery)
    ensures ValuesOf(Params(vq), QParam) == [vq.q]
    ensures ValuesOf(Params(vq), MaxResultsParam) == Listed(ShowOpt(vq.maxResults))
    ensures ValuesOf(Params(vq), StartIndexParam) == Listed(ShowOpt(vq.startIndex)) + Listed(ShowOpt(vq.startIndex))
    ensures ValuesOf(Params(vq), LangRestrictParam) == Listed(vq.langRestrict)
    ensures ValuesOf(Params(vq), ProjectionParam) == Listed(RenderProjectionOpt(vq.projection)) + Listed(RenderPrintTypeOpt(vq.printType))
    ensures ValuesOf(Params(vq), PrintTypeParam) == []
  {
    ValuesOfQ(vq);
    ValuesOfMaxResults(vq);
    ValuesOfStartIndex(vq);
    ValuesOfLangRestrict(vq);
    ValuesOfProjection(vq);
    ValuesOfPrintType(vq);
  }

  /** No range check: a negative count is sent as it is, with its minus sign,
      and reads back as the same number. */
  lemma NegativeSentAsIs(vq: VolumeQuery, n: Int32)
    requires n < 0
    ensures ValuesOf(Params(WithMaxResults(vq, n)), MaxResultsParam) == [Show(n)]
    ensures Show(n)[0] == '-' && Parse(Show(n)) == Some(n as int)
  {
    ValuesOfMaxResults(WithMaxResults(vq, n));
    ParseShow(n);
  }

  /** The names in the order `build_url` writes them, each option at its slot. */
  const CanonicalKeys: seq<Param> :=
    [QParam, MaxResultsParam, StartIndexParam, StartIndexParam, LangRestrictParam, ProjectionParam, ProjectionParam]

  /** True when `a` is `b` with some elements left out. */
  predicate IsSubsequence(a: seq<Param>, b: seq<Param>)
    decreases |b|
  {
    if a == [] then true
    else if b == [] then false
    else (a[0] == b[0] && IsSubsequence(a[1..], b[1..])) || IsSubsequence(a, b[1..])
  }

  lemma SubsequenceStep(x: seq<Param>, a: seq<Param>, k: Param, b: seq<Param>)
    requires x == [] || x == [k]
    requires IsSubsequence(a, b)
    ensures IsSubsequence(x + a, [k] + b)
  {
    assert ([k] + b)[1..] == b;
    if x == [k] {
      assert (x + a)[1..] == a;
    } else {
      assert x + a == a;
    }
  }

  lemma SevenSteps(x0: seq<Param>, x1: seq<Param>, x2: seq<Param>, x3: seq<Param>,
                   x4: seq<Param>, x5: seq<Param>, x6: seq<Param>,
                   k0: Param, k1: Param, k2: Param, k3: Param, k4: Param, k5: Param, k6: Param)
    requires x0 == [] || x0 == [k0]
    requires x1 == [] || x1 == [k1]
    requires x2 == [] || x2 == [k2]
    requires x3 == [] || x3 == [k3]
    requires x4 == [] || x4 == [k4]
    requires x5 == [] || x5 == [k5]
    requires x6 == [] || x6 == [k6]
    ensures IsSubsequence(x0 + (x1 + (x2 + (x3 + (x4 + (x5 + x6))))),
                          [k0] + ([k1] + ([k2] + ([k3] + ([k4] + ([k5] + [k6]))))))
  {
    assert x6 + [] == x6;
    assert [k6] == [k6] + [];
    SubsequenceStep(x6, [], k6, []);
    SubsequenceStep(x5, x6, k5, [k6]);
    SubsequenceStep(x4, x5 + x6, k4, [k5] + [k6]);
    SubsequenceStep(x3, x4 + (x5 + x6), k3, [k4] + ([k5] + [k6]));
    SubsequenceStep(x2, x3 + (x4 + (x5 + x6)), k2, [k3] + ([k4] + ([k5] + [k6])));
    SubsequenceStep(x1, x2 + (x3 + (x4 + (x5 + x6))), k1, [k2] + ([k3] + ([k4] + ([k5] + [k6]))));
    SubsequenceStep(x0, x1 + (x2 + (x3 + (x4 + (x5 + x6)))), k0, [k1] + ([k2] + ([k3] + ([k4] + ([k5] + [k6])))));
  }

  lemma KeysOptionalPair(name: Param, value: Option<string>)
    ensures Keys(OptionalPair(name, value)) == (if value.Some? then [name] else [])
  {
  }

  lemma CanonicalNested()
    ensures CanonicalKeys == [QParam] + ([MaxResultsParam] + ([StartIndexParam] + ([StartIndexParam]
      + ([LangRestrictParam] + ([ProjectionParam] + [ProjectionParam])))))
  {
  }

  lemma Reassociate<T>(a: seq<T>, b: seq<T>, c: seq<T>, d: seq<T>, e: seq<T>, f: seq<T>, g: seq<T>)
    ensures a + b + c + d + e + f + g == a + (b + (c + (d + (e + (f + g)))))
  {
  }

  /** The names `build_url` sends start with `q` and follow the fixed order
      `maxResults`, `startIndex`, `startIndex`, `langRestrict`, `projection`,
      `projection`, skipping absent options. The order depends only on which
      options are set, never on the order the setters were called in. */
  lemma ParamsKeyOrder(vq: VolumeQuery)
    ensures Keys(Params(vq))[0] == QParam
    ensures IsSubsequence(Keys(Params(vq)), CanonicalKeys)
  {
    ParamsParts(vq, QParam);
    var x0 := Keys(OptionalPair(QParam, Some(vq.q)));
    var x1 := Keys(OptionalPair(MaxResultsParam, ShowOpt(vq.maxResults)));
    var x2 := Keys(OptionalPair(StartIndexParam, ShowOpt(vq.startIndex)));
    var x4 := Keys(OptionalPair(LangRestrictParam, vq.langRestrict));
    var x5 := Keys(OptionalPair(ProjectionParam, RenderProjectionOpt(vq.projection)));
    var x6 := Keys(OptionalPair(ProjectionParam, RenderPrintTypeOpt(vq.printType)));
    KeysOptionalPair(QParam, Some(vq.q));
    KeysOptionalPair(MaxResultsParam, ShowOpt(vq.maxResults));
    KeysOptionalPair(StartIndexParam, ShowOpt(vq.startIndex));
    KeysOptionalPair(LangRestrictParam, vq.langRestrict);
    KeysOptionalPair(ProjectionParam, RenderProjectionOpt(vq.projection));
    KeysOptionalPair(ProjectionParam, RenderPrintTypeOpt(vq.printType));
    SevenSteps(x0, x1, x2, x2, x4, x5, x6,
      QParam, MaxResultsParam, StartIndexParam, StartIndexParam, LangRestrictParam, ProjectionParam, ProjectionParam);
    Reassociate(x0, x1, x2, x2, x4, x5, x6);
    CanonicalNested();
  }
}

=== FILE: url_read.dfy ===
/** Reading a URL written by `build_url` back into the query it came from:
    the partner that shows `build_url` loses nothing, despite its duplicate
    start index and its print type sent under the projection name. */
module UrlRead {
  import opened Wrappers
  import opened Decimal
  import opened Queries
  import opened UrlLaws
  import FormUrlEncoded

  /** Gives each decoded pair its parameter name; fails on an unknown name. */
  function Named(ps: seq<(string, string)>): (r: Option<seq<(Param, string)>>)
    ensures r.Some? ==> |r.value| == |ps|
  {
    if ps == [] then Some([])
    else
      match ParseParam(ps[0].0)
      case None => None
      case Some(name) =>
        match Named(ps[1..])
        case None => None
        case Some(rest) => Some([(name, ps[0].1)] + rest)
  }

  /** Spelling the names out and reading them back is the identity. */
  lemma {:induction false} NamedSpelled(ps: seq<(Param, string)>)
    ensures Named(Spelled(ps)) == Some(ps)
    decreases |ps|
  {
    if ps != [] {
      var sp := Spelled(ps);
      assert sp[0] == (ParamText(ps[0].0), ps[0].1) && sp[1..] == Spelled(ps[1..]);
      assert ParseParam(sp[0].0) == Some(ps[0].0);
      NamedSpelled(ps[1..]);
      assert Named(sp) == Some([(ps[0].0, sp[0].1)] + ps[1..]);
      assert [(ps[0].0, ps[0].1)] + ps[1..] == ps;
    }
  }

  /** An integer option read from the values listed under its name: absent
      when none is listed, otherwise the first value, which must be an i32. */
  function ReadInt32(vs: seq<string>): (r: Option<Option<Int32>>)
    ensures vs == [] ==> r == Some(None)
    ensures vs != [] && r.Some? ==> r.value.Some? && Parse(vs[0]) == Some(r.value.value as int)
    ensures vs != [] ==> (r.Some? <==> ParseInt32(vs[0]).Some?)
  {
    if vs == [] then Some(None)
    else
      match ParseInt32(vs[0])
      case Some(n) => Some(Some(n))
      case None => None
  }

  /** The first value that names a projection. */
  function FirstProjection(vs: seq<string>): (r: Option<Projection>)
    ensures r.Some? ==> exists i :: 0 <= i < |vs| && ParseProjection(vs[i]) == r
                          && forall j :: 0 <= j < i ==> ParseProjection(vs[j]).None?
    ensures r.None? <==> forall i :: 0 <= i < |vs| ==> ParseProjection(vs[i]).None?
  {
    if vs == [] then None
    else if ParseProjection(vs[0]).Some? then ParseProjection(vs[0])
    else
      var r := FirstProjection(vs[1..]);
      assert forall i :: 1 <= i < |vs| ==> vs[i] == vs[1..][i - 1];
      r
  }

  /** The first value that names a print type. */
  function FirstPrintType(vs: seq<string>): (r: Option<PrintType>)
    ensures r.Some? ==> exists i :: 0 <= i < |vs| && ParsePrintType(vs[i]) == r
                          && forall j :: 0 <= j < i ==> ParsePrintType(vs[j]).None?
    ensures r.None? <==> forall i :: 0 <= i < |vs| ==> ParsePrintType(vs[i]).None?
  {
    if vs == [] then None
    else if ParsePrintType(vs[0]).Some? then ParsePrintType(vs[0])
    else
      var r := FirstPrintType(vs[1..]);
      assert forall i :: 1 <= i < |vs| ==> vs[i] == vs[1..][i - 1];
      r
  }

  /** Rebuilds a query from named pairs: `q` must be present; each option is
      taken from the first value listed under its name, the print type from
      the first print-type name listed under `printTypeUnder`. As `build_url`
      is written, that is `projection`, shared with the projection; the two
      are told apart by their values, since no projection name is a
      print-type name. */
  function Recover(ps: seq<(Param, string)>, printTypeUnder: Param): (r: Option<VolumeQuery>)
    ensures r.Some? ==> ValuesOf(ps, QParam) != [] && r.value.q == ValuesOf(ps, QParam)[0]
    ensures r.Some? ==> (r.value.langRestrict.Some? <==> ValuesOf(ps, LangRestrictParam) != [])
  {
    var qs := ValuesOf(ps, QParam);
    var langs := ValuesOf(ps, LangRestrictParam);
    if qs == [] then None
    else
      match (ReadInt32(ValuesOf(ps, MaxResultsParam)), ReadInt32(ValuesOf(ps, StartIndexParam)))
      case (Some(max), Some(start)) =>
        Some(VolumeQuery(qs[0], max, start,
                         if langs == [] then None else Some(langs[0]),
                         FirstProjection(ValuesOf(ps, ProjectionParam)),
                         FirstPrintType(ValuesOf(ps, printTypeUnder))))
      case _ => None
  }

  /** Reads a URL: the base and volumes path, `?`, then the decoded pairs. */
  function ReadUrl(url: string, base: string, printTypeUnder: Param): (r: Option<VolumeQuery>)
    ensures r.Some? ==> |url| > |base + VolumesPath| && url[..|base + VolumesPath| + 1] == base + VolumesPath + "?"
  {
    var prefix := base + VolumesPath + "?";
    if |url| < |prefix| || url[..|prefix|] != prefix then None
    else
      match FormUrlEncoded.ParsePairs(url[|prefix|..])
      case None => None
      case Some(pairs) =>
        match Named(pairs)
        case None => None
        case Some(ps) => Recover(ps, printTypeUnder)
  }

  lemma ReadInt32Listed(n: Option<Int32>)
    ensures ReadInt32(Listed(ShowOpt(n))) == Some(n)
  {
    if n.Some? {
      ParseInt32Show(n.value);
    }
  }

  lemma ReadInt32Twice(n: Option<Int32>)
    ensures ReadInt32(Listed(ShowOpt(n)) + Listed(ShowOpt(n))) == Some(n)
  {
    if n.Some? {
      ParseInt32Show(n.value);
      assert (Listed(ShowOpt(n)) + Listed(ShowOpt(n)))[0] == Show(n.value);
    }
  }

  lemma FirstProjectionShown(p: Option<Projection>, t: Option<PrintType>)
    ensures FirstProjection(Listed(RenderProjectionOpt(p)) + Listed(RenderPrintTypeOpt(t))) == p
  {
    var vs := Listed(RenderProjectionOpt(p)) + Listed(RenderPrintTypeOpt(t));
    if p.Some? {
      assert vs[0] == RenderProjection(p.value);
    } else {
      assert vs == Listed(RenderPrintTypeOpt(t));
    }
  }

  lemma FirstPrintTypeShown(p: Option<Projection>, t: Option<PrintType>)
    ensures FirstPrintType(Listed(RenderProjectionOpt(p)) + Listed(RenderPrintTypeOpt(t))) == t
  {
    var vs := Listed(RenderProjectionOpt(p)) + Listed(RenderPrintTypeOpt(t));
    if p.Some? {
      assert vs[0] == RenderProjection(p.value);
      assert vs[1..] == Listed(RenderPrintTypeOpt(t));
    } else {
      assert vs == Listed(RenderPrintTypeOpt(t));
    }
  }

  /** The pairs `build_url` collects determine the query. */
  lemma RecoverParams(vq: VolumeQuery)
    ensures Recover(Params(vq), ProjectionParam) == Some(vq)
  {
    ParamsValues(vq);
    ReadInt32Listed(vq.maxResults);
    ReadInt32Twice(vq.startIndex);
    FirstProjectionShown(vq.projection, vq.printType);
    FirstPrintTypeShown(vq.projection, vq.printType);
  }

  /** Reading a URL made of the base, the volumes path and serialized pairs
      recovers from exactly those pairs. */
  lemma ReadSerialized(ps: seq<(Param, string)>, base: string, printTypeUnder: Param)
    ensures ReadUrl(base + VolumesPath + "?" + FormUrlEncoded.SerializePairs(Spelled(ps)), base, printTypeUnder)
            == Recover(ps, printTypeUnder)
  {
    var prefix := base + VolumesPath + "?";
    var pairs := Spelled(ps);
    var url := prefix + FormUrlEncoded.SerializePairs(pairs);
    assert url[..|prefix|] == prefix;
    assert url[|prefix|..] == FormUrlEncoded.SerializePairs(pairs);
    FormUrlEncoded.ParseSerializePairs(pairs);
    NamedSpelled(ps);
  }

  /** Round trip: the URL `build_url` writes reads back as the same query. */
  lemma ReadBuildUrl(vq: VolumeQuery, base: string)
    ensures ReadUrl(BuildUrl(vq, base), base, ProjectionParam) == Some(vq)
  {
    ReadSerialized(Params(vq), base, ProjectionParam);
    RecoverParams(vq);
  }

  /** The query part of the URL parses back to exactly the collected pairs,
      in the order `build_url` pushes them: `q` first, then the options. */
  lemma ParseBuildUrl(vq: VolumeQuery, base: string)
    ensures FormUrlEncoded.ParsePairs(BuildUrl(vq, base)[|base| + |VolumesPath| + 1..])
            == Some(Spelled(Params(vq)))
  {
    assert BuildUrl(vq, base)[|base + VolumesPath + "?"|..] == FormUrlEncoded.SerializePairs(Spelled(Params(vq)));
    FormUrlEncoded.ParseSerializePairs(Spelled(Params(vq)));
  }

  /** Distinct queries give distinct URLs on the same base. */
  lemma BuildUrlInjective(a: VolumeQuery, b: VolumeQuery, base: string)
    requires BuildUrl(a, base) == BuildUrl(b, base)
    ensures a == b
  {
    ReadBuildUrl(a, base);
    ReadBuildUrl(b, base);
  }

  lemma {:induction false} SpelledAt(ps: seq<(Param, string)>, k: nat)
    requires k < |ps|
    ensures Spelled(ps)[k] == (ParamText(ps[k].0), ps[k].1)
    decreases |ps|
  {
    if k > 0 {
      SpelledAt(ps[1..], k - 1);
    }
  }

  /** Every pair `build_url` collects appears in its URL as `name=value`,
      both sides form-urlencoded. */
  lemma BuildUrlCarries(vq: VolumeQuery, base: string, k: nat)
    requires k < |Params(vq)|
    ensures FormUrlEncoded.Occurs(
      FormUrlEncoded.Serialize(ParamText(Params(vq)[k].0)) + "=" + FormUrlEncoded.Serialize(Params(vq)[k].1),
      BuildUrl(vq, base))
  {
    var pairs := Spelled(Params(vq));
    SpelledAt(Params(vq), k);
    FormUrlEncoded.SerializePairsCarries(pairs, k);
    FormUrlEncoded.OccursWithin(FormUrlEncoded.SerializePair(pairs[k]), base + VolumesPath + "?",
                                FormUrlEncoded.SerializePairs(pairs), "");
    assert base + VolumesPath + "?" + FormUrlEncoded.SerializePairs(pairs) + "" == BuildUrl(vq, base);
  }

  /** A pair whose name and value need no escaping appears in the URL verbatim. */
  lemma BuildUrlCarriesVerbatim(vq: VolumeQuery, base: string, k: nat, p: Param, name: string, value: string)
    requires k < |Params(vq)| && Params(vq)[k] == (p, value)
    requires ParamText(p) == name
    requires FormUrlEncoded.AllKept(name) && FormUrlEncoded.AllKept(value)
    ensures FormUrlEncoded.Occurs(name + "=" + value, BuildUrl(vq, base))
  {
    BuildUrlCarries(vq, base, k);
    FormUrlEncoded.SerializeKept(name);
    FormUrlEncoded.SerializeKept(value);
  }

  /** The search string appears right after `q=`, form-urlencoded. */
  lemma BuildUrlCarriesSearch(vq: VolumeQuery, base: string)
    ensures FormUrlEncoded.Occurs("q=" + FormUrlEncoded.Serialize(vq.q), BuildUrl(vq, base))
  {
    CarriesUnder(vq, base, "q");
    assert "q" + "=" + FormUrlEncoded.Serialize(vq.q) == "q=" + FormUrlEncoded.Serialize(vq.q);
  }

  // Pinning the literal through a parameter keeps the verifier from unfolding
  // the serializer on it.
  lemma CarriesUnder(vq: VolumeQuery, base: string, q: string)
    requires q == "q"
    ensures FormUrlEncoded.Occurs(q + "=" + FormUrlEncoded.Serialize(vq.q), BuildUrl(vq, base))
  {
    BuildUrlCarries(vq, base, 0);
    assert FormUrlEncoded.AllKept(q);
    FormUrlEncoded.SerializeKept(q);
  }
}

=== FILE: utf8.dfy ===
/** UTF-8 encoding of Unicode scalar values (RFC 3629, section 3), as Rust stores
    a `String`. The form-urlencoded serializer works on these bytes. */
module Utf8 {
  import opened Wrappers

  /** An octet. */
  type byte = x: int | 0 <= x < 0x100

  /** True for the code points U+0000..U+007F, which UTF-8 stores as one byte. */
  predicate IsAscii(c: char) {
    c as int < 0x80
  }

  /** True for a UTF-8 continuation byte, 10xxxxxx. */
  predicate IsContinuation(b: byte) {
    0x80 <= b < 0xC0
  }

  /** The UTF-8 encoding of one scalar value: one to four bytes, whose lead byte
      says how many follow. */
  function EncodeChar(c: char): (bs: seq<byte>)
    ensures 1 <= |bs| <= 4
    ensures |bs| == 1 <==> IsAscii(c)
    ensures IsAscii(c) ==> bs[0] == c as int
    ensures forall i :: 1 <= i < |bs| ==> IsContinuation(bs[i])
  {
    var n := c as int;
    if n < 0x80 then
      [n]
    else if n < 0x800 then
      [0xC0 + n / 0x40, 0x80 + n % 0x40]
    else if n < 0x1_0000 then
      [0xE0 + n / 0x1000, 0x80 + n / 0x40 % 0x40, 0x80 + n % 0x40]
    else
      [0xF0 + n / 0x4_0000, 0x80 + n / 0x1000 % 0x40, 0x80 + n / 0x40 % 0x40, 0x80 + n % 0x40]
  }

  /** The UTF-8 encoding of a string: the concatenation of its characters' encodings. */
  function Encode(s: string): (r: seq<byte>)
    ensures |s| <= |r| <= 4 * |s|
  {
    if s == [] then [] else EncodeChar(s[0]) + Encode(s[1..])
  }

  /** A code point that a `char` can hold: not a surrogate and at most U+10FFFF. */
  predicate IsScalar(v: int) {
    (0 <= v < 0xD800) || (0xE000 <= v < 0x11_0000)
  }

  /** Decodes the first character of `bs`, returning it with the number of bytes
      it occupied, or None when `bs` does not start with a well-formed sequence
      (bad lead byte, missing continuation, overlong form, surrogate, or a value
      above U+10FFFF). */
  function DecodeChar(bs: seq<byte>): (r: Option<(char, nat)>)
    ensures r.Some? ==> 1 <= r.value.1 <= |bs| && r.value.1 <= 4
  {
    if |bs| == 0 then None
    else if bs[0] < 0x80 then Some((bs[0] as char, 1))
    else if bs[0] < 0xC2 then None
    else if bs[0] < 0xE0 then
      if |bs| < 2 || !IsContinuation(bs[1]) then None
      else
        var v := (bs[0] as int - 0xC0) * 0x40 + (bs[1] as int - 0x80);
        Some((v as char, 2))
    else if bs[0] < 0xF0 then
      if |bs| < 3 || !IsContinuation(bs[1]) || !IsContinuation(bs[2]) then None
      else
        var v := (bs[0] as int - 0xE0) * 0x1000 + (bs[1] as int - 0x80) * 0x40 + (bs[2] as int - 0x80);
        if v < 0x800 || !IsScalar(v) then None else Some((v as char, 3))
    else if bs[0] < 0xF5 then
      if |bs| < 4 || !IsContinuation(bs[1]) || !IsContinuation(bs[2]) || !IsContinuation(bs[3]) then None
      else
        var v := (bs[0] as int - 0xF0) * 0x4_0000 + (bs[1] as int - 0x80) * 0x1000 + (bs[2] as int - 0x80) * 0x40 + (bs[3] as int - 0x80);
        if v < 0x1_0000 || !IsScalar(v) then None else Some((v as char, 4))
    else None
  }

  /** Decodes a whole byte sequence, or None if any part of it is not well-formed UTF-8. */
  function Decode(bs: seq<byte>): Option<string>
    decreases |bs|
  {
    if bs == [] then Some([])
    else
      match DecodeChar(bs)
      case None => None
      case Some((c, k)) =>
        match Decode(bs[k..])
        case None => None
        case Some(rest) => Some([c] + rest)
  }

  /** Reading back the encoding of a character yields that character and consumes
      exactly its bytes, whatever follows. */
  lemma DecodeEncodeChar(c: char, rest: seq<byte>)
    ensures DecodeChar(EncodeChar(c) + rest) == Some((c, |EncodeChar(c)|))
  {
    var n := c as int;
    var bs := EncodeChar(c) + rest;
    if n < 0x80 {
    } else if n < 0x800 {
      assert (n / 0x40) * 0x40 + n % 0x40 == n;
    } else if n < 0x1_0000 {
      DivSplit(n, 0x40);
      assert n / 0x40 / 0x40 == n / 0x1000;
    } else {
      DivSplit(n, 0x40);
      DivSplit(n / 0x40, 0x40);
      assert n / 0x40 / 0x40 == n / 0x1000;
      assert n / 0x1000 / 0x40 == n / 0x4_0000;
    }
  }

  /** Euclidean division facts for a positive divisor. */
  lemma DivSplit(n: nat, d: nat)
    requires 0 < d
    ensures n == (n / d) * d + n % d
    ensures 0 <= n % d < d
  {
  }

  /** UTF-8 is lossless: decoding the encoding of any string gives it back. */
  lemma {:induction false} DecodeEncode(s: string)
    ensures Decode(Encode(s)) == Some(s)
  {
    if s != [] {
      var e := EncodeChar(s[0]);
      DecodeEncodeChar(s[0], Encode(s[1..]));
      assert (e + Encode(s[1..]))[|e|..] == Encode(s[1..]);
      DecodeEncode(s[1..]);
      assert [s[0]] + s[1..] == s;
    }
  }

  /** Encoding distributes over concatenation. */
  lemma {:induction false} EncodeAppend(a: string, b: string)
    ensures Encode(a + b) == Encode(a) + Encode(b)
  {
    if a != [] {
      assert (a + b)[0] == a[0];
      assert (a + b)[1..] == a[1..] + b;
      EncodeAppend(a[1..], b);
    } else {
      assert a + b == b;
    }
  }
}

=== FILE: wrappers.dfy ===
/** The optional-value datatype used for the builder's optional fields and for
    the partial decoders that serve as inverses of the encoders. */
module Wrappers {

  /** A value that may be absent, as Rust's `Option<T>`. */
  datatype Option<+T> = None | Some(value: T)
}
